=== FILE: README.md ===
# Cytoplasm ROI derivation, modelled in Dafny

Two Fiji (Jython) scripts post-process ImageJ ROI sets. A set holds an
optional leading background ROI, then a nucleus ROI and a whole-cell ROI for
each cell. Both scripts do the same four things:

- walk an input directory and pick ROI archives by a file-name filter; as
  written, only the files of the last directory `os.walk` yields are processed;
- refuse a set whose count does not pair up;
- for each nucleus index the loop `range(skip, n - skip, 2)` visits, rename the
  pair `Nucl_k`/`Cell_k` and append a cytoplasm ROI `Cyto_k` (the enlarged
  nucleus XOR the cell). With one skipped ROI or none this is every pair; with
  two or more skipped ROIs (possible only in `Cytoplasm_ROI.py`) the loop bound
  also drops pairs at the end;
- save the new set under the output directory as `<stem>_Cyto_Rois.zip`,
  optionally mirroring the input directory tree.

The scripts differ as follows:

- `create_cyto_circle_rois.py` also appends a second tail entry per cell. It
  adds a scratch circle around the nucleus and ANDs it with the cytoplasm. When
  the intersection is non-empty it is added as `CytoConstrained_k` and the
  circle is deleted; when it is empty the circle stays in the list, right
  after `Cyto_k`. The script then shrinks the nucleus back and renames index 0
  "Background" when one ROI is skipped.
- `Cytoplasm_ROI.py` leaves the nucleus enlarged. It writes one row per ROI
  (file name, ROI name, area) into a results table shared by all files, and
  saves that table as `RoiAreas.csv`.

The model keeps the discrete part: the ROI list as a sequence of
`(name, geometry)` records, the index arithmetic of the loops, the renames,
appends and the delete, and the string computations.

Geometry is a type parameter. XOR, AND, Enlarge, the circle around a nucleus,
area, and the label RoiManager gives an added ROI are fields of `GeomOps` that
are never interpreted. No law of geometry is assumed, and in particular
Enlarge by `+d` then `-d` is not assumed to restore the outline.

Modules:

- `Text`: Python's `str(int)`, `startswith`, `endswith`, `in` and `list.sort()`.
- `Paths`: the file filter, `str.replace`, POSIX `os.path.splitext` and
  `os.path.join`, and the save path.
- `Pairing`: the odd-count test and `range(skip, n - skip, 2)`.
- `Rois`: the list and the RoiManager commands.
- `CircleRois`: the per-file model of `create_cyto_circle_rois.py`.
- `CytoRois`: the per-file model of `Cytoplasm_ROI.py`, with its measurement rows.
- `Batch`: both `run` functions.

Each per-file derivation is written twice:

- as the script's command sequence (`CellCommands`, `CytoCommands`), folded
  over the nucleus indices (`CellLoop`, `CytoLoop`);
- as an independent entry-by-entry reference (`Entry`, `Layout`): after `t`
  cells, entry `j` is the renamed pair of the cell that owns index `j`, that
  cell's tail entry, or the loaded entry.

`DeriveIsLayout` proves the two agree for every input. The per-position facts
(`CellEntries`, `LoadedEntriesStay`) are read off the reference.

Reading an archive is the parameter `load`. It maps the path
`os.path.join(root, fileName)` to the list RoiManager holds after "Open".
A directory walk is the list of `(root, dirs, filenames)` triples `os.walk`
would yield.

## Model

| member | source | states |
|---|---|---|
| Text.NatToString | create_cyto_circle_rois.py:103-104 | `str(cellIndex)` is a non-empty run of decimal digits with no leading zero for a positive number |
| Text.DigitsValueOfNatToString | create_cyto_circle_rois.py:103-104 | reading the decimal text of a cell number back gives the number (round trip) |
| Text.Label | create_cyto_circle_rois.py:103-104 | a ROI label is its prefix followed by at least one digit and nothing else |
| Text.LabelInjective | create_cyto_circle_rois.py:103-104 | two labels with one prefix are equal exactly when the cell numbers are equal |
| Text.LabelsWithDistinctPrefixes | Cytoplasm_ROI.py:80-90 | labels whose prefixes differ at a shared position ("Nucl_", "Cell_", "Cyto_") never coincide |
| Text.Contains | create_cyto_circle_rois.py:242 | `containString in filename` holds exactly when the pattern occurs at some index |
| Text.StrLeTotal | create_cyto_circle_rois.py:232 | the order `sort()` uses compares any two names |
| Text.StrLeTransitive | create_cyto_circle_rois.py:232 | that order is transitive |
| Text.Insert | create_cyto_circle_rois.py:232 | inserting a name adds exactly that name to the multiset of names |
| Text.InsertSorted | create_cyto_circle_rois.py:232 | inserting into an ordered list keeps it ordered |
| Text.Sort | create_cyto_circle_rois.py:232 | `filenames.sort()` is a permutation of the names |
| Text.SortSorted | create_cyto_circle_rois.py:232 | after `filenames.sort()` the names are in ascending order |
| Paths.Accept | create_cyto_circle_rois.py:235-243 | a file is processed exactly when its name has no leading dot, ends with the extension and contains the pattern somewhere |
| Paths.InterleaveEmpty | create_cyto_circle_rois.py:182 | replacing an empty `srcDir` in a name of `n` characters gives `n + (n + 1) * |dstDir|` characters |
| Paths.InterleaveEmptyContents | create_cyto_circle_rois.py:182 | replacing an empty `srcDir` puts `dstDir` in each of the `n + 1` gaps: chunk `i` is `dstDir` then character `i`, and the result ends with `dstDir` |
| Paths.ReplaceAll | create_cyto_circle_rois.py:182 | `str.replace` by a string of the target's length keeps the length, and a name starting with the target starts with the replacement |
| Paths.ReplaceAllKeepsPrefix | create_cyto_circle_rois.py:182 | every character before the first occurrence of a non-empty target is kept as it is |
| Paths.ReplaceAllLeftmost | create_cyto_circle_rois.py:182 | the leftmost occurrence of a non-empty target is replaced and replacing goes on over everything after it, so every non-overlapping occurrence is replaced, not only the first |
| Paths.ReplaceAllAbsent | create_cyto_circle_rois.py:182 | `currentDir.replace(srcDir, dstDir)` leaves a path without `srcDir` unchanged |
| Paths.ReplaceAllBySelf | create_cyto_circle_rois.py:182 | replacing `srcDir` by itself leaves every path unchanged |
| Paths.MirroredDirectory | create_cyto_circle_rois.py:182 | a directory `srcDir + rel` is saved to `dstDir + rel` when `rel` does not itself contain `srcDir` |
| Paths.ReplacedDirectory | create_cyto_circle_rois.py:182 | for a non-empty `srcDir`: a directory without `srcDir` in it is kept; `srcDir + rel` becomes `dstDir + rel.replace(srcDir, dstDir)`, which is `dstDir + rel` when `rel` holds no further `srcDir` |
| Paths.SaveDir | create_cyto_circle_rois.py:182 | without kept directories the save directory is `dstDir`; with them and a non-empty `srcDir`, a directory without `srcDir` in it is kept, `srcDir + rel` becomes `dstDir + rel.replace(srcDir, dstDir)`, and that is `dstDir + rel` when `rel` holds no further `srcDir` |
| Paths.TopLevelSavePath | create_cyto_circle_rois.py:182 | with kept directories, a set found directly in `srcDir` is saved in `dstDir` |
| Paths.RFind | create_cyto_circle_rois.py:186 | the index found is the last occurrence of the character, or -1 when there is none |
| Paths.SplitExt | create_cyto_circle_rois.py:186 | root + extension rebuilds the name; the extension is empty or one dot followed by no dot or separator, with a non-dot character before it in the last component; when nothing is split off, every dot of the last component has only dots before it there |
| Paths.Join | create_cyto_circle_rois.py:188 | `os.path.join`: an absolute second part wins; otherwise the result starts with the first part and ends with the second, with nothing between them when the first part is empty or ends in `/`, and exactly one `/` otherwise |
| Paths.OutputNameOfStem | create_cyto_circle_rois.py:186-188 | a file `stem + ".ext"` is saved as `stem + "_Cyto_Rois.zip"` |
| Paths.OutputName | create_cyto_circle_rois.py:186-188 | the archive name is a prefix of the file name followed by "_Cyto_Rois.zip", the part dropped lying in the last path component |
| Paths.OutputNameRelative | create_cyto_circle_rois.py:186-188 | a file name not starting with `/` gives an output name not starting with `/` |
| Paths.SavePath | create_cyto_circle_rois.py:182-188 | the save path ends with the output name and, for a relative file name, starts with the save directory |
| Paths.SavePathIsJoin | create_cyto_circle_rois.py:188 | for a relative file name the save path is exactly `os.path.join(saveDir, name)`: the save directory, one `/` unless it is empty or already ends in `/`, then the output name, with nothing in between |
| Paths.FlatSavePath | Cytoplasm_ROI.py:116-122 | without kept directories the archive is exactly `dstDir + "/" + name` (or `dstDir + name` when `dstDir` is empty or ends in `/`), so it goes directly under `dstDir` |
| Pairing.Range2 | create_cyto_circle_rois.py:82 | `range(start, stop, 2)` has `ceil((stop - start) / 2)` elements, `start + 2j` at position `j`, all below `stop` |
| Pairing.SkipFor | create_cyto_circle_rois.py:204-207 | `skipRois` is 1 exactly when the background box is ticked, else 0 |
| Pairing.Rejected | create_cyto_circle_rois.py:73 | the odd-count test `(numRois - skip) % 2 != 0`, with Python's non-negative `%`; its consequences are the lemmas below |
| Pairing.NucleusIndices | create_cyto_circle_rois.py:79-82 | the loop visits `skip + 2j` for every `j` with `skip + 2j < numRois - skip`, and no further index |
| Pairing.Cells | create_cyto_circle_rois.py:79-82 | the number of visited cells is `ceil((numRois - 2 skip) / 2)`, or 0 when `numRois - skip <= skip` |
| Pairing.NucleusIndicesInBounds | create_cyto_circle_rois.py:79-82 | in an accepted set every visited nucleus and the cell after it are inside the loaded list |
| Pairing.PairsFitLoaded | create_cyto_circle_rois.py:79-82 | the visited pairs end no later than the loaded count |
| Pairing.CellCountSmallSkip | create_cyto_circle_rois.py:79-82 | with skip 0 or 1 an accepted set visits exactly `(n - skip) / 2` cells |
| Pairing.CellCountLargeSkip | Cytoplasm_ROI.py:71-74 | with `skipRois >= 2` the loop visits strictly fewer than `(n - skip) / 2` cells whenever there is a pair |
| Pairing.SixRoisSkipTwo | Cytoplasm_ROI.py:71-74 | six ROIs with two skipped are accepted and only index 2 is visited |
| Pairing.ShortOddSetRejected | create_cyto_circle_rois.py:73-75 | a set shorter than `skip` by an odd amount is refused, because Python's `%` is never negative |
| Rois.Rename | create_cyto_circle_rois.py:103-104 | `rm.rename(i, name)` sets the name at `i`, keeps its outline and changes no other entry |
| Rois.Update | create_cyto_circle_rois.py:99-100 | "Update" after Enlarge replaces the outline at `i`, keeps its name and changes no other entry |
| Rois.Add | create_cyto_circle_rois.py:111 | "Add" keeps the list and puts the new ROI, under RoiManager's own label, at the old count |
| Rois.Delete | create_cyto_circle_rois.py:141-142 | "Delete" of index `i` keeps the entries before it and moves every later entry down one place |
| Rois.CytoGeom | create_cyto_circle_rois.py:99-111 | the cytoplasm outline: the nucleus enlarged by `dilate`, XOR the cell (no contract: both operations are uninterpreted) |
| Text.CellLabelsDistinct | create_cyto_circle_rois.py:103-114 | `Nucl_a`, `Cell_a` and `Cyto_a` differ from one another for any numbers, and from the same prefix's label of any other number |
| CircleRois.CellCommands | create_cyto_circle_rois.py:99-147 | one pass adds exactly two entries: the renamed nucleus holds the enlarged-then-shrunk outline, the cell is renamed, `Cyto_k` sits at the old count and the constrained entry right after it; nothing else changes |
| CircleRois.CommandsHaveNetEffect | create_cyto_circle_rois.py:99-147 | the command sequence of one pass equals its net effect: the pair renamed in place and two entries appended |
| CircleRois.CellStep | create_cyto_circle_rois.py:99-147 | the net effect of one pass, which adds exactly two entries; `CommandsHaveNetEffect` proves it equal to the command sequence |
| CircleRois.Restored | create_cyto_circle_rois.py:145-147 | the nucleus outline after Enlarge by `dilate` and then by `-dilate` (no contract: Enlarge is uninterpreted) |
| CircleRois.ConstrainedSlot | create_cyto_circle_rois.py:116-142 | the second tail entry of a cell; its two cases are stated by `ConstrainedExactlyWhenIntersecting` |
| CircleRois.CellLoop | create_cyto_circle_rois.py:82-150 | the per-cell loop grows the list by two entries per visited index |
| CircleRois.EntryUntouched | create_cyto_circle_rois.py:69-82 | in the reference layout, a loaded entry outside the visited pairs is the loaded entry |
| CircleRois.EntriesOfCell | create_cyto_circle_rois.py:99-150 | in the reference layout, cell `c + 1` owns `a + 2c`, `a + 2c + 1`, `n + 2c` and `n + 2c + 1`, with the names and outlines of that cell |
| CircleRois.StepFollowsLayout | create_cyto_circle_rois.py:82-150 | one pass at the next nucleus turns the layout after `t` cells into the layout after `t + 1` cells |
| CircleRois.LoopFollowsLayout | create_cyto_circle_rois.py:82-150 | the loop over the remaining nuclei completes the layout |
| CircleRois.Derive | create_cyto_circle_rois.py:79-179 | the derived list has `n + 2 * cells` entries |
| CircleRois.DeriveIsLayout | create_cyto_circle_rois.py:79-179 | the derived list is the reference layout, with index 0 renamed "Background" exactly when one ROI is skipped |
| CircleRois.CellEntries | create_cyto_circle_rois.py:99-150 | cell `c + 1` keeps its pair at `skip + 2c` as `Nucl_{c+1}` and `Cell_{c+1}`, and its cytoplasm and constrained entry are `n + 2c` and `n + 2c + 1` |
| CircleRois.CellNamesDistinct | create_cyto_circle_rois.py:103-114 | in a derived list, two different cells never share a `Nucl_`, `Cell_` or `Cyto_` name, and no nucleus, cell and cytoplasm names coincide |
| CircleRois.DerivedCount | create_cyto_circle_rois.py:79-150 | with skip 0 or 1 an accepted set ends with `n + 2 * ((n - skip) / 2)` entries, whatever the intersections |
| CircleRois.ConstrainedExactlyWhenIntersecting | create_cyto_circle_rois.py:129-142 | the entry after `Cyto_k` is `CytoConstrained_k` with the intersection when there is one, and otherwise the circle under RoiManager's label |
| CircleRois.LoadedEntriesStay | create_cyto_circle_rois.py:79-179 | a loaded entry outside the visited pairs is unchanged, except index 0, which becomes "Background" when one ROI is skipped |
| CircleRois.BackgroundExactlyWhenSkipped | create_cyto_circle_rois.py:176-179 | index 0 of the result is named "Background" exactly when one ROI is skipped |
| CircleRois.Process | create_cyto_circle_rois.py:69-188 | nothing is derived or saved exactly when `(n - skip) % 2 != 0`; otherwise the saved set is the derived list, `n + 2 * cells` entries, at its save path |
| CytoRois.CytoCommands | Cytoplasm_ROI.py:76-91 | one pass adds exactly one entry: the renamed nucleus stays enlarged, the cell is renamed, `Cyto_k` sits at the old count, and nothing else changes |
| CytoRois.CommandsHaveNetEffect | Cytoplasm_ROI.py:76-91 | the command sequence of one pass equals its net effect: the pair renamed in place and one entry appended |
| CytoRois.CytoStep | Cytoplasm_ROI.py:76-91 | the net effect of one pass, which adds exactly one entry; `CommandsHaveNetEffect` proves it equal to the command sequence |
| CytoRois.CytoLoop | Cytoplasm_ROI.py:74-91 | the per-cell loop grows the list by one entry per visited index |
| CytoRois.EntryUntouched | Cytoplasm_ROI.py:63-74 | in the reference layout, a loaded entry outside the visited pairs is the loaded entry |
| CytoRois.EntriesOfCell | Cytoplasm_ROI.py:76-91 | in the reference layout, cell `c + 1` owns `a + 2c`, `a + 2c + 1` and `n + c` |
| CytoRois.StepFollowsLayout | Cytoplasm_ROI.py:74-91 | one pass at the next nucleus turns the layout after `t` cells into the layout after `t + 1` cells |
| CytoRois.LoopFollowsLayout | Cytoplasm_ROI.py:74-91 | the loop over the remaining nuclei completes the layout |
| CytoRois.Derive | Cytoplasm_ROI.py:71-91 | the derived list has `n + iterations` entries |
| CytoRois.DeriveIsLayout | Cytoplasm_ROI.py:71-91 | the derived list is the reference layout after all visited cells, with no "Background" rename |
| CytoRois.CellEntries | Cytoplasm_ROI.py:76-91 | cell `c + 1` keeps its pair at `skip + 2c` as `Nucl_{c+1}` (enlarged) and `Cell_{c+1}`, and `Cyto_{c+1}` is entry `n + c`, so the cytoplasms follow all loaded ROIs in cell order |
| CytoRois.CellNamesDistinct | Cytoplasm_ROI.py:80-90 | in a derived list, two different cells never share a `Nucl_`, `Cell_` or `Cyto_` name, and no nucleus, cell and cytoplasm names coincide |
| CytoRois.LoadedEntriesStay | Cytoplasm_ROI.py:71-91 | a loaded entry outside the visited pairs, index 0 included, is unchanged |
| CytoRois.DerivedCount | Cytoplasm_ROI.py:71-91 | with skip 0 or 1 an accepted set ends with `n + (n - skip) / 2` entries |
| CytoRois.SixRoisSkipTwoDerivesOneCell | Cytoplasm_ROI.py:71-91 | six ROIs with two skipped yield seven entries: only the pair at 2 is renamed, `Cyto_1` is appended, and entries 4 and 5 keep their loaded names |
| CytoRois.Measure | Cytoplasm_ROI.py:95-113 | one row per ROI in index order, each carrying the file name, the ROI's current name and its area |
| CytoRois.Process | Cytoplasm_ROI.py:63-122 | a refused set saves nothing and leaves the table as it was; otherwise the saved set is the derived list, `n + cells` entries, at its save path, and its measurement rows are appended to the table |
| CytoRois.ProcessAppendsRows | Cytoplasm_ROI.py:95-113 | `process` only appends to the table: earlier rows stay, and an accepted set adds `n + iterations` rows carrying its file name |
| Batch.Listing | create_cyto_circle_rois.py:231-233 | the file loop sees the root and the sorted names of the last walk entry, and nothing when the walk is empty |
| Batch.ListingOfLastEntry | create_cyto_circle_rois.py:231-233 | entries before the last one in the walk have no effect |
| Batch.Collect | create_cyto_circle_rois.py:233-245 | the file loop as the concatenation of each name's contribution in list order (no contract; `CollectFrom` and `CollectHas` state what it holds) |
| Batch.CollectAppend | create_cyto_circle_rois.py:233-245 | the file loop over two name lists is the loop over the first followed by the loop over the second |
| Batch.CollectFrom | create_cyto_circle_rois.py:233-245 | every output of the file loop is part of the contribution of a listed name |
| Batch.CollectHas | create_cyto_circle_rois.py:233-245 | every contribution of a listed name appears among the outputs |
| Batch.CircleFile | create_cyto_circle_rois.py:233-245 | one file yields an archive exactly when it passes the filter and its set is accepted, at its save path and holding its derived list |
| Batch.RunCircle | create_cyto_circle_rois.py:191-250 | a run fails exactly when the walk yields no entry |
| Batch.RunCircleSavesEveryAccepted | create_cyto_circle_rois.py:231-245 | every name of the last walk entry that passes the filter and whose set is accepted has its archive |
| Batch.RunCircleSavesOnlyAccepted | create_cyto_circle_rois.py:231-245 | every archive of the run, at any position, belongs to such a name, at its save path and holding its derived list |
| Batch.Thread | Cytoplasm_ROI.py:138-150 | the file loop that threads the shared table through its iterations (no contract; the lemmas below state what it computes) |
| Batch.ThreadAppend | Cytoplasm_ROI.py:138-150 | the table-threading file loop over two name lists is the first loop, then the second starting from the table it left |
| Batch.ThreadKeepsRows | Cytoplasm_ROI.py:136-150 | when every iteration only appends rows to the table it is given, the whole loop keeps the starting rows as a prefix |
| Batch.ThreadIsCollect | Cytoplasm_ROI.py:136-150 | when each iteration's rows and archives depend on its file alone, the loop equals two independent concatenations in name order |
| Batch.CytoFile | Cytoplasm_ROI.py:140-150 | a file the filter refuses leaves the table as it was; otherwise `process` saves it and appends its measurement rows |
| Batch.RunCyto | Cytoplasm_ROI.py:126-157 | a run fails exactly when the walk yields no entry, and otherwise saves the table as "RoiAreas.csv" in `dstDir` |
| Batch.CytoLoopBodyAppends | Cytoplasm_ROI.py:140-150 | one iteration keeps the earlier rows, and every row it adds names its file, which passes the filter and has an accepted set |
| Batch.CytoLoopKeepsRows | Cytoplasm_ROI.py:136-150 | the shared table is append-only: the file loop, from any starting table, keeps its rows as a prefix |
| Batch.RunCytoRowsFromAccepted | Cytoplasm_ROI.py:136-157 | every row of the final table names a file of the last walk entry that passes the filter and has an accepted set |
| Batch.CytoLoopIsCollect | Cytoplasm_ROI.py:136-150 | from a fresh table, the file loop over any name list yields, in name order, each processed file's measurement rows as the table and its archive as the saved list; skipped names contribute nothing |
| Batch.RunCytoByFile | Cytoplasm_ROI.py:136-157 | the final table is, in sorted file order, the measurement rows of each processed file's derived list, and the archives are those derived lists at their save paths |
| Batch.SkippedFileLeavesTable | Cytoplasm_ROI.py:67-69 | a file the filter refuses, or whose set is refused, adds neither archive nor row |

## Left out

- Geometry. XOR, AND, Enlarge, the OvalRoi around the nucleus, area and the
  label "Add" gives are uninterpreted functions. That an empty AND leaves no
  selection is the `None` of `intersect`.
- The centroid, calibration, pixel-size and radius arithmetic that places the
  circle (create_cyto_circle_rois.py:86-96, 119-122). It is floating-point
  work inside ImageJ; the circle is `ops.disk(nucleus)` of the outline before
  dilation.
- Logging (`IJ.log`), the dummy image, "Close All", "Clear Results",
  `os.path.exists`, `os.makedirs` and the archive and table writes. These are
  I/O; the model returns what would be written and where.
- The second loop of create_cyto_circle_rois.py (lines 152-173). It only
  selects ROIs and reads statistics, and its table code is commented out, so
  it has no effect to model.
- `rm.runCommand(imp, "Measure")` in Cytoplasm_ROI.py:107. It also writes to
  ImageJ's own Results window; only the script's own table is modelled.
- Negative `skipRois`. The field is an unrestricted integer, but the model
  takes `skip: nat`.
- The Windows flavour of `os.path`. `splitext` and `join` are the POSIX
  versions.
- An archive that fails to open, or a RoiManager command that fails, is not
  modelled: `load` always returns a list.
- Nothing is dropped from the circle variant's count. When the AND is empty,
  the code does not delete the scratch circle, and it stays right after
  `Cyto_k`. Every cell therefore adds exactly two entries; the count is not
  `n + cells + successful intersections`. The model follows the code.
- The walk quirk is modelled as written. The file loop sits after the walk
  loop in both scripts, so only the files of the last directory `os.walk`
  yields are processed, and an empty walk stops the script with an unbound
  name (`None` in the model).
- CircleRois.Restored: the nucleus slot holds Enlarge(Enlarge(nucleus, +d), -d).
  It is not claimed to equal the loaded outline, because ImageJ's Enlarge is
  not invertible in general.
- GeomOps.autoName: the label RoiManager's "Add" gives is a function of the
  outline alone. If RoiManager also makes labels unique against names already
  in the list, only one name would differ: that of the circle left after an
  empty AND (the no-intersection case of `CircleRois.ConstrainedSlot`).

=== FILE: batch.dfy ===
/** The `run` functions of both scripts: which files of the walk are processed,
    in which order, what is saved, and (Cytoplasm_ROI.py) how the one results
    table accumulates across files. Reading a ROI set from disk is the
    parameter `load`, from the path `os.path.join(root, fileName)` to the list
    RoiManager holds after "Open". */
module Batch {
  import opened Rois
  import opened Text
  import opened Paths
  import opened Pairing
  import CircleRois
  import CytoRois

  /** One triple `(root, directories, filenames)` yielded by `os.walk`. */
  datatype WalkEntry = WalkEntry(root: string, dirs: seq<string>, filenames: seq<string>)

  /** The script parameters both variants share. */
  datatype Settings = Settings(
    srcDir: string, dstDir: string, ext: string, containString: string,
    dilate: int, keepDirectories: bool)

  /** What the file loop iterates. The loop over file names sits after the walk
      loop, so `root` and `filenames` are those of the LAST walk entry, whose list
      was sorted in place; with no walk entry at all the names are unbound and the
      script stops with an error (`None`). */
  function Listing(walk: seq<WalkEntry>): (r: Option<(string, seq<string>)>)
    ensures r.None? <==> |walk| == 0
    ensures r.Some? ==> r.value.0 == walk[|walk| - 1].root
    ensures r.Some? ==> Sorted(r.value.1) && multiset(r.value.1) == multiset(walk[|walk| - 1].filenames)
  {
    if |walk| == 0 then None
    else
      var last := walk[|walk| - 1];
      SortSorted(last.filenames);
      Some((last.root, Sort(last.filenames)))
  }

  /** Only the last walk entry matters: subdirectories visited before it are never processed. */
  lemma ListingOfLastEntry(walk: seq<WalkEntry>)
    requires |walk| > 0
    ensures Listing(walk) == Listing([walk[|walk| - 1]])
  {
  }

  // ---------------------------------------------------------------- the two file loops

  /** A file loop whose iterations only contribute outputs: the contributions of
      `names`, in order. */
  function Collect<T>(step: string -> seq<T>, names: seq<string>): seq<T>
    decreases |names|
  {
    if |names| == 0 then [] else step(names[0]) + Collect(step, names[1..])
  }

  /** The loop splits over concatenated name lists. */
  lemma {:induction false} CollectAppend<T>(step: string -> seq<T>, names1: seq<string>, names2: seq<string>)
    ensures Collect(step, names1 + names2) == Collect(step, names1) + Collect(step, names2)
    decreases |names1|
  {
    if |names1| == 0 {
      assert names1 + names2 == names2;
    } else {
      assert (names1 + names2)[0] == names1[0];
      assert (names1 + names2)[1..] == names1[1..] + names2;
      CollectAppend(step, names1[1..], names2);
    }
  }

  /** Every output comes from the contribution of a listed name. */
  lemma {:induction false} CollectFrom<T>(step: string -> seq<T>, names: seq<string>, k: int)
    requires 0 <= k < |Collect(step, names)|
    ensures exists f, m :: f in names && 0 <= m < |step(f)| && Collect(step, names)[k] == step(f)[m]
    decreases |names|
  {
    var head := step(names[0]);
    if k < |head| {
      assert Collect(step, names)[k] == head[k];
    } else {
      CollectFrom(step, names[1..], k - |head|);
      var f, m :| f in names[1..] && 0 <= m < |step(f)| && Collect(step, names[1..])[k - |head|] == step(f)[m];
      assert f in names;
      assert Collect(step, names)[k] == Collect(step, names[1..])[k - |head|];
    }
  }

  /** Every contribution of a listed name is among the outputs. */
  lemma {:induction false} CollectHas<T>(step: string -> seq<T>, names: seq<string>, f: string, m: int)
    requires f in names && 0 <= m < |step(f)|
    ensures exists k :: 0 <= k < |Collect(step, names)| && Collect(step, names)[k] == step(f)[m]
    decreases |names|
  {
    var head := step(names[0]);
    if names[0] == f {
      assert Collect(step, names)[m] == head[m];
    } else {
      assert f in names[1..];
      CollectHas(step, names[1..], f, m);
      var k :| 0 <= k < |Collect(step, names[1..])| && Collect(step, names[1..])[k] == step(f)[m];
      assert Collect(step, names)[|head| + k] == Collect(step, names[1..])[k];
    }
  }

  /** The archives saved so far and the shared table. */
  datatype Progress<G> = Progress(saved: seq<Saved<G>>, table: seq<CytoRois.Row>)

  /** A file loop that also threads the shared table through its iterations. */
  function Thread<G>(step: (seq<CytoRois.Row>, string) -> CytoRois.Outcome<G>, table: seq<CytoRois.Row>,
                     names: seq<string>): Progress<G>
    decreases |names|
  {
    if |names| == 0 then Progress([], table)
    else
      var first := step(table, names[0]);
      var rest := Thread(step, first.table, names[1..]);
      Progress((if first.saved.Some? then [first.saved.value] else []) + rest.saved, rest.table)
  }

  /** The threaded loop splits over concatenated name lists: the second part starts
      from the table the first part leaves. */
  lemma {:induction false} ThreadAppend<G>(step: (seq<CytoRois.Row>, string) -> CytoRois.Outcome<G>, table: seq<CytoRois.Row>,
                                           names1: seq<string>, names2: seq<string>)
    ensures var p1 := Thread(step, table, names1);
            var p2 := Thread(step, p1.table, names2);
            Thread(step, table, names1 + names2) == Progress(p1.saved + p2.saved, p2.table)
    decreases |names1|
  {
    if |names1| == 0 {
      assert names1 + names2 == names2;
    } else {
      assert (names1 + names2)[0] == names1[0];
      assert (names1 + names2)[1..] == names1[1..] + names2;
      ThreadAppend(step, step(table, names1[0]).table, names1[1..], names2);
    }
  }

  /** Every iteration only appends rows to the table it is given. */
  ghost predicate OnlyAppends<G>(step: (seq<CytoRois.Row>, string) -> CytoRois.Outcome<G>) {
    forall t, f :: |step(t, f).table| >= |t| && step(t, f).table[..|t|] == t
  }

  /** When every iteration only appends rows, so does the whole loop. */
  lemma {:induction false} ThreadKeepsRows<G>(step: (seq<CytoRois.Row>, string) -> CytoRois.Outcome<G>,
                                              table: seq<CytoRois.Row>, names: seq<string>)
    requires OnlyAppends(step)
    ensures |Thread(step, table, names).table| >= |table| && Thread(step, table, names).table[..|table|] == table
    decreases |names|
  {
    if |names| > 0 {
      var first := step(table, names[0]);
      ThreadKeepsRows(step, first.table, names[1..]);
      var r := Thread(step, table, names);
      assert r.table[..|table|] == r.table[..|first.table|][..|table|];
    }
  }

  /** When each iteration appends rows and archives that depend on its file name
      only, the threaded loop is two independent `Collect`s: the archives in name
      order, and the starting table followed by the rows in name order. */
  lemma {:induction false} ThreadIsCollect<G>(step: (seq<CytoRois.Row>, string) -> CytoRois.Outcome<G>,
                                              rowsOf: string -> seq<CytoRois.Row>, savedOf: string -> seq<Saved<G>>,
                                              table: seq<CytoRois.Row>, names: seq<string>)
    requires forall t, f :: step(t, f).table == t + rowsOf(f)
    requires forall t, f :: (if step(t, f).saved.Some? then [step(t, f).saved.value] else []) == savedOf(f)
    ensures Thread(step, table, names) == Progress(Collect(savedOf, names), table + Collect(rowsOf, names))
    decreases |names|
  {
    if |names| == 0 {
      assert table + [] == table;
    } else {
      var first := step(table, names[0]);
      ThreadIsCollect(step, rowsOf, savedOf, first.table, names[1..]);
      assert first.table + Collect(rowsOf, names[1..]) == table + Collect(rowsOf, names);
    }
  }

  // ---------------------------------------------------------------- circle variant

  /** One file of the circle script's loop: nothing for a name the filter refuses
      or a set refused for its count, otherwise the one archive `process` saves. */
  function CircleFile<G>(ops: GeomOps<G>, load: string -> seq<Roi<G>>, cfg: Settings, skip: nat,
                         root: string, fileName: string): (r: seq<Saved<G>>)
    ensures |r| <= 1
    ensures |r| == 1 <==> Accept(fileName, cfg.ext, cfg.containString) && !Rejected(|load(Join(root, fileName))|, skip)
    ensures |r| == 1 ==> r[0].path == SavePath(cfg.srcDir, cfg.dstDir, root, fileName, cfg.keepDirectories)
    ensures |r| == 1 ==> r[0].rois == CircleRois.Derive(ops, skip, cfg.dilate, load(Join(root, fileName)))
  {
    if !Accept(fileName, cfg.ext, cfg.containString) then []
    else
      var loaded := load(Join(root, fileName));
      match CircleRois.Process(ops, cfg.srcDir, cfg.dstDir, root, fileName, cfg.keepDirectories, skip, cfg.dilate, loaded)
      case None => []
      case Some(s) => [s]
  }

  /** The loop body of the circle script for the files of `root`. */
  function CircleLoopBody<G>(ops: GeomOps<G>, load: string -> seq<Roi<G>>, cfg: Settings, skip: nat,
                             root: string): string -> seq<Saved<G>> {
    f => CircleFile(ops, load, cfg, skip, root, f)
  }

  /** `run` of create_cyto_circle_rois.py: `skipRois` from the background checkbox,
      then the file loop over the listing. */
  function RunCircle<G>(ops: GeomOps<G>, load: string -> seq<Roi<G>>, cfg: Settings, backgroundRoi: bool,
                        walk: seq<WalkEntry>): (r: Option<seq<Saved<G>>>)
    ensures r.None? <==> |walk| == 0
  {
    match Listing(walk)
    case None => None
    case Some((root, names)) => Some(Collect(CircleLoopBody(ops, load, cfg, SkipFor(backgroundRoi), root), names))
  }

  /** Every name of the last walk entry that passes the filter and whose set is
      accepted has its archive among the run's outputs, at its save path and
      holding its derived list. */
  lemma RunCircleSavesEveryAccepted<G>(ops: GeomOps<G>, load: string -> seq<Roi<G>>, cfg: Settings, backgroundRoi: bool,
                                       walk: seq<WalkEntry>, f: string)
    requires |walk| > 0 && f in walk[|walk| - 1].filenames
    requires Accept(f, cfg.ext, cfg.containString)
    requires !Rejected(|load(Join(walk[|walk| - 1].root, f))|, SkipFor(backgroundRoi))
    ensures var root := walk[|walk| - 1].root;
            var r := RunCircle(ops, load, cfg, backgroundRoi, walk).value;
            exists k :: (0 <= k < |r| && r[k].path == SavePath(cfg.srcDir, cfg.dstDir, root, f, cfg.keepDirectories)
              && r[k].rois == CircleRois.Derive(ops, SkipFor(backgroundRoi), cfg.dilate, load(Join(root, f))))
  {
    var root := walk[|walk| - 1].root;
    var names := Listing(walk).value.1;
    var step := CircleLoopBody(ops, load, cfg, SkipFor(backgroundRoi), root);
    assert f in multiset(names);
    assert |step(f)| == 1;
    CollectHas(step, names, f, 0);
    var k :| 0 <= k < |Collect(step, names)| && Collect(step, names)[k] == step(f)[0];
    var r := RunCircle(ops, load, cfg, backgroundRoi, walk).value;
    assert r == Collect(step, names);
    assert r[k] == CircleFile(ops, load, cfg, SkipFor(backgroundRoi), root, f)[0];
  }

  /** Every archive of a run (the one at position `k`, for any `k`) belongs to a
      name of the last walk entry that passes the filter and whose set is
      accepted, at that name's save path and holding its derived list. */
  lemma RunCircleSavesOnlyAccepted<G>(ops: GeomOps<G>, load: string -> seq<Roi<G>>, cfg: Settings, backgroundRoi: bool,
                                      walk: seq<WalkEntry>, k: int)
    requires |walk| > 0 && 0 <= k
    ensures var root := walk[|walk| - 1].root;
            var r := RunCircle(ops, load, cfg, backgroundRoi, walk).value;
            k < |r| ==> exists f :: (f in walk[|walk| - 1].filenames
              && Accept(f, cfg.ext, cfg.containString) && !Rejected(|load(Join(root, f))|, SkipFor(backgroundRoi))
              && r[k].path == SavePath(cfg.srcDir, cfg.dstDir, root, f, cfg.keepDirectories)
              && r[k].rois == CircleRois.Derive(ops, SkipFor(backgroundRoi), cfg.dilate, load(Join(root, f))))
  {
    var root := walk[|walk| - 1].root;
    var names := Listing(walk).value.1;
    var step := CircleLoopBody(ops, load, cfg, SkipFor(backgroundRoi), root);
    var r := RunCircle(ops, load, cfg, backgroundRoi, walk).value;
    assert r == Collect(step, names);
    if k < |r| {
      CollectFrom(step, names, k);
      var f, m :| f in names && 0 <= m < |step(f)| && r[k] == step(f)[m];
      assert f in multiset(names);
      var file := CircleFile(ops, load, cfg, SkipFor(backgroundRoi), root, f);
      assert step(f) == file;
      assert |file| == 1 && m == 0;
    }
  }

  // ---------------------------------------------------------------- cytoplasm variant

  /** One file of Cytoplasm_ROI.py's loop: a name the filter refuses leaves
      everything as it was; otherwise `process` runs against the shared table. */
  function CytoFile<G>(ops: GeomOps<G>, load: string -> seq<Roi<G>>, cfg: Settings, skip: nat,
                       root: string, table: seq<CytoRois.Row>, fileName: string): (r: CytoRois.Outcome<G>)
    ensures r.saved.Some? <==> Accept(fileName, cfg.ext, cfg.containString) && !Rejected(|load(Join(root, fileName))|, skip)
    ensures r.saved.None? ==> r.table == table
    ensures r.saved.Some? ==> r.saved.value.path == SavePath(cfg.srcDir, cfg.dstDir, root, fileName, cfg.keepDirectories)
    ensures r.saved.Some? ==> r.saved.value.rois == CytoRois.Derive(ops, skip, cfg.dilate, load(Join(root, fileName)))
    ensures r.saved.Some? ==> r.table == table + CytoRois.Measure(ops, fileName, r.saved.value.rois)
  {
    if !Accept(fileName, cfg.ext, cfg.containString) then CytoRois.Outcome(None, table)
    else CytoRois.Process(ops, cfg.srcDir, cfg.dstDir, root, fileName, cfg.keepDirectories, skip, cfg.dilate,
                          load(Join(root, fileName)), table)
  }

  /** The run's outputs: the archives, the table and the path `table.save` writes it to. */
  datatype CytoRun<G> = CytoRun(saved: seq<Saved<G>>, table: seq<CytoRois.Row>, tablePath: string)

  /** The loop body of Cytoplasm_ROI.py for the files of `root`. */
  function CytoLoopBody<G>(ops: GeomOps<G>, load: string -> seq<Roi<G>>, cfg: Settings, skip: nat,
                           root: string): (seq<CytoRois.Row>, string) -> CytoRois.Outcome<G> {
    (t, f) => CytoFile(ops, load, cfg, skip, root, t, f)
  }

  /** `run` of Cytoplasm_ROI.py: a fresh table, the file loop, and the table saved
      as "RoiAreas.csv" in `dstDir` whatever was processed. */
  function RunCyto<G>(ops: GeomOps<G>, load: string -> seq<Roi<G>>, cfg: Settings, skipRois: nat,
                      walk: seq<WalkEntry>): (r: Option<CytoRun<G>>)
    ensures r.None? <==> |walk| == 0
    ensures r.Some? ==> r.value.tablePath == Join(cfg.dstDir, "RoiAreas.csv")
  {
    match Listing(walk)
    case None => None
    case Some((root, names)) =>
      var p := Thread(CytoLoopBody(ops, load, cfg, skipRois, root), [], names);
      Some(CytoRun(p.saved, p.table, Join(cfg.dstDir, "RoiAreas.csv")))
  }

  /** One file only appends rows, all naming it, and only when it passes the
      filter and its set is accepted. */
  lemma CytoFileAppends<G>(ops: GeomOps<G>, load: string -> seq<Roi<G>>, cfg: Settings, skip: nat,
                           root: string, t: seq<CytoRois.Row>, f: string)
    ensures var o := CytoFile(ops, load, cfg, skip, root, t, f);
            && |o.table| >= |t| && o.table[..|t|] == t
            && forall j :: |t| <= j < |o.table| ==>
                 (o.table[j].fileName == f && Accept(f, cfg.ext, cfg.containString) && !Rejected(|load(Join(root, f))|, skip))
  {
    var o := CytoFile(ops, load, cfg, skip, root, t, f);
    assert o.table[..|t|] == t;
    if o.saved.Some? {
      var rows := CytoRois.Measure(ops, f, o.saved.value.rois);
      forall j | |t| <= j < |o.table| ensures o.table[j].fileName == f {
        assert o.table[j] == rows[j - |t|];
      }
    }
  }

  /** Each pass of the loop body only appends rows, all naming its file, and only
      for a file that passes the filter and whose set is accepted. */
  lemma CytoLoopBodyAppends<G>(ops: GeomOps<G>, load: string -> seq<Roi<G>>, cfg: Settings, skip: nat,
                               root: string, t: seq<CytoRois.Row>, f: string)
    ensures var o := CytoLoopBody(ops, load, cfg, skip, root)(t, f);
            && |o.table| >= |t| && o.table[..|t|] == t
            && forall j :: |t| <= j < |o.table| ==>
                 (o.table[j].fileName == f && Accept(f, cfg.ext, cfg.containString) && !Rejected(|load(Join(root, f))|, skip))
  {
    CytoFileAppends(ops, load, cfg, skip, root, t, f);
  }

  /** The rows one file adds to the table: the measurement of its derived list
      when it passes the filter and its set is accepted, otherwise none. */
  function CytoRowsOf<G>(ops: GeomOps<G>, load: string -> seq<Roi<G>>, cfg: Settings, skip: nat,
                         root: string): string -> seq<CytoRois.Row> {
    f => if Accept(f, cfg.ext, cfg.containString) && !Rejected(|load(Join(root, f))|, skip)
         then CytoRois.Measure(ops, f, CytoRois.Derive(ops, skip, cfg.dilate, load(Join(root, f))))
         else []
  }

  /** The archive one file adds: its derived list at its save path when it passes
      the filter and its set is accepted, otherwise none. */
  function CytoSavedOf<G>(ops: GeomOps<G>, load: string -> seq<Roi<G>>, cfg: Settings, skip: nat,
                          root: string): string -> seq<Saved<G>> {
    f => if Accept(f, cfg.ext, cfg.containString) && !Rejected(|load(Join(root, f))|, skip)
         then [Saved(SavePath(cfg.srcDir, cfg.dstDir, root, f, cfg.keepDirectories),
                     CytoRois.Derive(ops, skip, cfg.dilate, load(Join(root, f))))]
         else []
  }

  /** The table-threading loop of Cytoplasm_ROI.py over any list of names, starting
      from a fresh table, is two independent concatenations in name order: each
      processed file's measurement rows, and each processed file's archive. */
  lemma CytoLoopIsCollect<G>(ops: GeomOps<G>, load: string -> seq<Roi<G>>, cfg: Settings, skip: nat,
                             root: string, names: seq<string>)
    ensures Thread(CytoLoopBody(ops, load, cfg, skip, root), [], names)
         == Progress(Collect(CytoSavedOf(ops, load, cfg, skip, root), names),
                     Collect(CytoRowsOf(ops, load, cfg, skip, root), names))
  {
    var step := CytoLoopBody(ops, load, cfg, skip, root);
    var rowsOf := CytoRowsOf(ops, load, cfg, skip, root);
    var savedOf := CytoSavedOf(ops, load, cfg, skip, root);
    forall t, f ensures step(t, f).table == t + rowsOf(f) {
      var o := CytoFile(ops, load, cfg, skip, root, t, f);
      if o.saved.None? {
        assert t + [] == t;
      }
    }
    forall t, f ensures (if step(t, f).saved.Some? then [step(t, f).saved.value] else []) == savedOf(f) {
      var o := CytoFile(ops, load, cfg, skip, root, t, f);
    }
    ThreadIsCollect(step, rowsOf, savedOf, [], names);
    assert [] + Collect(rowsOf, names) == Collect(rowsOf, names);
  }

  /** A run of Cytoplasm_ROI.py, file by file in sorted order of the last walk entry:
      the table is the concatenation of each processed file's measurement rows and
      the archives are those files' derived lists; the table is saved as
      "RoiAreas.csv" in `dstDir`. */
  lemma RunCytoByFile<G>(ops: GeomOps<G>, load: string -> seq<Roi<G>>, cfg: Settings, skipRois: nat,
                         walk: seq<WalkEntry>)
    requires |walk| > 0
    ensures var last := walk[|walk| - 1];
            var r := RunCyto(ops, load, cfg, skipRois, walk).value;
            && r.table == Collect(CytoRowsOf(ops, load, cfg, skipRois, last.root), Sort(last.filenames))
            && r.saved == Collect(CytoSavedOf(ops, load, cfg, skipRois, last.root), Sort(last.filenames))
            && r.tablePath == Join(cfg.dstDir, "RoiAreas.csv")
  {
    CytoLoopIsCollect(ops, load, cfg, skipRois, walk[|walk| - 1].root, Sort(walk[|walk| - 1].filenames));
  }

  /** The shared table is append-only: the file loop, started from any table,
      keeps that table's rows as a prefix. */
  lemma CytoLoopKeepsRows<G>(ops: GeomOps<G>, load: string -> seq<Roi<G>>, cfg: Settings, skip: nat,
                             root: string, table: seq<CytoRois.Row>, names: seq<string>)
    ensures var r := Thread(CytoLoopBody(ops, load, cfg, skip, root), table, names).table;
            |r| >= |table| && r[..|table|] == table
  {
    var step := CytoLoopBody(ops, load, cfg, skip, root);
    forall t, f ensures |step(t, f).table| >= |t| && step(t, f).table[..|t|] == t {
      CytoLoopBodyAppends(ops, load, cfg, skip, root, t, f);
    }
    ThreadKeepsRows(step, table, names);
  }

  /** Every row of a run's table names a file of the last walk entry that passes the
      filter and whose set is accepted. */
  lemma RunCytoRowsFromAccepted<G>(ops: GeomOps<G>, load: string -> seq<Roi<G>>, cfg: Settings, skipRois: nat,
                                   walk: seq<WalkEntry>)
    requires |walk| > 0
    ensures var root := walk[|walk| - 1].root;
            var table := RunCyto(ops, load, cfg, skipRois, walk).value.table;
            forall j :: 0 <= j < |table| ==>
              exists f :: (f in walk[|walk| - 1].filenames
                && Accept(f, cfg.ext, cfg.containString) && !Rejected(|load(Join(root, f))|, skipRois)
                && table[j].fileName == f)
  {
    var root := walk[|walk| - 1].root;
    var names := Sort(walk[|walk| - 1].filenames);
    var rowsOf := CytoRowsOf(ops, load, cfg, skipRois, root);
    var table := RunCyto(ops, load, cfg, skipRois, walk).value.table;
    RunCytoByFile(ops, load, cfg, skipRois, walk);
    SortSorted(walk[|walk| - 1].filenames);
    forall j | 0 <= j < |table|
      ensures exists f :: (f in walk[|walk| - 1].filenames
                && Accept(f, cfg.ext, cfg.containString) && !Rejected(|load(Join(root, f))|, skipRois)
                && table[j].fileName == f)
    {
      CollectFrom(rowsOf, names, j);
      var f, m :| f in names && 0 <= m < |rowsOf(f)| && Collect(rowsOf, names)[j] == rowsOf(f)[m];
      assert f in multiset(names);
      assert Accept(f, cfg.ext, cfg.containString) && !Rejected(|load(Join(root, f))|, skipRois);
      assert rowsOf(f)[m].fileName == f;
    }
  }

  /** A file the filter refuses, or whose set is refused, adds no archive and no row. */
  lemma SkippedFileLeavesTable<G>(ops: GeomOps<G>, load: string -> seq<Roi<G>>, cfg: Settings, skip: nat,
                                  root: string, table: seq<CytoRois.Row>, f: string)
    requires !Accept(f, cfg.ext, cfg.containString) || Rejected(|load(Join(root, f))|, skip)
    ensures Thread(CytoLoopBody(ops, load, cfg, skip, root), table, [f]) == Progress([], table)
  {
    assert [f][1..] == [];
  }
}

=== FILE: circle_rois.dfy ===
/** Per-file derivation of create_cyto_circle_rois.py: for every (nucleus,
    cell) pair, a cytoplasm ROI and a disk-constrained cytoplasm ROI are
    appended, the nucleus is enlarged and shrunk back, the pair is renamed,
    and index 0 becomes "Background" when one leading ROI is skipped. */
module CircleRois {
  import opened Rois
  import opened Text
  import opened Pairing
  import Paths

  /** What the nucleus slot holds after the loop: enlarged by `dilate`, then by `-dilate`.
      Nothing here says this equals the loaded outline. */
  function Restored<G>(ops: GeomOps<G>, dilate: int, nucleus: G): G {
    ops.enlarge(ops.enlarge(nucleus, dilate), -dilate)
  }

  /** The second ROI a cell leaves at the tail: "CytoConstrained_k" when the cytoplasm
      meets the disk around the (undilated) nucleus, otherwise the disk itself under
      the name RoiManager gave it. */
  function ConstrainedSlot<G>(ops: GeomOps<G>, dilate: int, nucleus: G, cell: G, k: nat): Roi<G> {
    match ops.intersect(CytoGeom(ops, dilate, nucleus, cell), ops.disk(nucleus))
    case Some(c) => Roi(Label("CytoConstrained_", k), c)
    case None => Roi(ops.autoName(ops.disk(nucleus)), ops.disk(nucleus))
  }

  /** One pass of the per-cell loop body, nucleus at `i`, cell number `k`, in the
      order the script issues RoiManager commands. The list grows by exactly two:
      the cytoplasm, then the constrained cytoplasm (the scratch circle is deleted
      and the constrained ROI moves down onto its index) or, when the intersection
      is empty, the circle left in place. Only `i` and `i + 1` change below the old end. */
  function CellCommands<G>(ops: GeomOps<G>, dilate: int, rois: seq<Roi<G>>, i: int, k: nat): (r: seq<Roi<G>>)
    requires 0 <= i && i + 1 < |rois|
    ensures |r| == |rois| + 2
    ensures forall j :: 0 <= j < |rois| && j != i && j != i + 1 ==> r[j] == rois[j]
    ensures r[i] == Roi(Label("Nucl_", k), Restored(ops, dilate, rois[i].geom))
    ensures r[i + 1] == Roi(Label("Cell_", k), rois[i + 1].geom)
    ensures r[|rois|] == Roi(Label("Cyto_", k), CytoGeom(ops, dilate, rois[i].geom, rois[i + 1].geom))
    ensures r[|rois| + 1] == ConstrainedSlot(ops, dilate, rois[i].geom, rois[i + 1].geom, k)
  {
    var orig := rois[i].geom;
    var circle := ops.disk(orig);
    var dilated := Update(rois, i, ops.enlarge(orig, dilate));
    var named := Rename(Rename(dilated, i, Label("Nucl_", k)), i + 1, Label("Cell_", k));
    var withCyto := Add(ops, named, ops.xor(named[i].geom, named[i + 1].geom));
    var cytoNamed := Rename(withCyto, |withCyto| - 1, Label("Cyto_", k));
    var withCircle := Add(ops, cytoNamed, circle);
    var newTotal := |withCircle|;
    var constrained :=
      match ops.intersect(withCircle[newTotal - 2].geom, withCircle[newTotal - 1].geom)
      case None => withCircle
      case Some(c) =>
        var added := Rename(Add(ops, withCircle, c), newTotal, Label("CytoConstrained_", k));
        Delete(added, newTotal - 1);
    Update(constrained, i, ops.enlarge(constrained[i].geom, -dilate))
  }

  /** The net effect of one pass: the pair at `i`, `i + 1` renamed (the nucleus
      outline enlarged and shrunk back), the cytoplasm and the second tail entry appended. */
  function CellStep<G>(ops: GeomOps<G>, dilate: int, rois: seq<Roi<G>>, i: int, k: nat): (r: seq<Roi<G>>)
    requires 0 <= i && i + 1 < |rois|
    ensures |r| == |rois| + 2
  {
    var nucleus := rois[i].geom;
    var cell := rois[i + 1].geom;
    rois[i := Roi(Label("Nucl_", k), Restored(ops, dilate, nucleus))][i + 1 := Roi(Label("Cell_", k), cell)]
      + [Roi(Label("Cyto_", k), CytoGeom(ops, dilate, nucleus, cell)), ConstrainedSlot(ops, dilate, nucleus, cell, k)]
  }

  /** The command sequence of a pass has exactly the net effect `CellStep` describes. */
  lemma CommandsHaveNetEffect<G>(ops: GeomOps<G>, dilate: int, rois: seq<Roi<G>>, i: int, k: nat)
    requires 0 <= i && i + 1 < |rois|
    ensures CellCommands(ops, dilate, rois, i, k) == CellStep(ops, dilate, rois, i, k)
  {
  }

  /** The `for RoiIndex in range(...)` loop: one `CellStep` per nucleus index,
      cell numbers counting up from `k`. */
  function CellLoop<G>(ops: GeomOps<G>, dilate: int, rois: seq<Roi<G>>, indices: seq<int>, k: nat): (r: seq<Roi<G>>)
    requires forall j :: 0 <= j < |indices| ==> 0 <= indices[j] && indices[j] + 1 < |rois|
    ensures |r| == |rois| + 2 * |indices|
    decreases |indices|
  {
    if |indices| == 0 then rois
    else CellLoop(ops, dilate, CellStep(ops, dilate, rois, indices[0], k), indices[1..], k + 1)
  }

  /** Reference definition of entry `j` after the first `t` cells, nuclei loaded at
      `a`, `a + 2`, ...: cell `t` owns its renamed pair in place and the two tail
      entries `n + 2(t - 1)` and `n + 2(t - 1) + 1`; every other entry is as it was
      after `t - 1` cells. */
  function Entry<G>(ops: GeomOps<G>, dilate: int, loaded: seq<Roi<G>>, a: nat, t: nat, j: int): Roi<G>
    requires t == 0 || a + 2 * t <= |loaded|
    requires 0 <= j < |loaded| + 2 * t
    decreases t
  {
    if t == 0 then loaded[j]
    else
      var i := a + 2 * (t - 1);
      var tail := |loaded| + 2 * (t - 1);
      if j == i then Roi(Label("Nucl_", t), Restored(ops, dilate, loaded[i].geom))
      else if j == i + 1 then Roi(Label("Cell_", t), loaded[i + 1].geom)
      else if j == tail then Roi(Label("Cyto_", t), CytoGeom(ops, dilate, loaded[i].geom, loaded[i + 1].geom))
      else if j == tail + 1 then ConstrainedSlot(ops, dilate, loaded[i].geom, loaded[i + 1].geom, t)
      else Entry(ops, dilate, loaded, a, t - 1, j)
  }

  /** The whole list after the first `t` cells, entry by entry. */
  function Layout<G>(ops: GeomOps<G>, dilate: int, loaded: seq<Roi<G>>, a: nat, t: nat): (r: seq<Roi<G>>)
    requires t == 0 || a + 2 * t <= |loaded|
    ensures |r| == |loaded| + 2 * t
  {
    LayoutPrefix(ops, dilate, loaded, a, t, |loaded| + 2 * t)
  }

  /** The first `m` entries of `Layout`. */
  function LayoutPrefix<G>(ops: GeomOps<G>, dilate: int, loaded: seq<Roi<G>>, a: nat, t: nat, m: nat): (r: seq<Roi<G>>)
    requires t == 0 || a + 2 * t <= |loaded|
    requires m <= |loaded| + 2 * t
    ensures |r| == m
    decreases m
  {
    if m == 0 then [] else LayoutPrefix(ops, dilate, loaded, a, t, m - 1) + [Entry(ops, dilate, loaded, a, t, m - 1)]
  }

  lemma {:induction false} LayoutPrefixAt<G>(ops: GeomOps<G>, dilate: int, loaded: seq<Roi<G>>, a: nat, t: nat, m: nat, j: nat)
    requires t == 0 || a + 2 * t <= |loaded|
    requires j < m <= |loaded| + 2 * t
    ensures LayoutPrefix(ops, dilate, loaded, a, t, m)[j] == Entry(ops, dilate, loaded, a, t, j)
    decreases m
  {
    if j < m - 1 {
      LayoutPrefixAt(ops, dilate, loaded, a, t, m - 1, j);
    }
  }

  lemma LayoutAt<G>(ops: GeomOps<G>, dilate: int, loaded: seq<Roi<G>>, a: nat, t: nat, j: nat)
    requires t == 0 || a + 2 * t <= |loaded|
    requires j < |loaded| + 2 * t
    ensures Layout(ops, dilate, loaded, a, t)[j] == Entry(ops, dilate, loaded, a, t, j)
  {
    LayoutPrefixAt(ops, dilate, loaded, a, t, |loaded| + 2 * t, j);
  }

  /** After `t` cells, a loaded entry outside the visited pairs is untouched. */
  lemma {:induction false} EntryUntouched<G>(ops: GeomOps<G>, dilate: int, loaded: seq<Roi<G>>, a: nat, t: nat, j: int)
    requires t == 0 || a + 2 * t <= |loaded|
    requires 0 <= j < |loaded| && !(a <= j < a + 2 * t)
    ensures Entry(ops, dilate, loaded, a, t, j) == loaded[j]
    decreases t
  {
    if t > 0 {
      EntryUntouched(ops, dilate, loaded, a, t - 1, j);
    }
  }

  /** After `t` cells, cell `c + 1` (c < t) holds its renamed nucleus and cell at
      `a + 2c` and `a + 2c + 1`, its cytoplasm at `n + 2c` and its second tail entry at `n + 2c + 1`. */
  lemma {:induction false} EntriesOfCell<G>(ops: GeomOps<G>, dilate: int, loaded: seq<Roi<G>>, a: nat, t: nat, c: nat)
    requires a + 2 * t <= |loaded| && c < t
    ensures var n := |loaded|;
            var i := a + 2 * c;
            && Entry(ops, dilate, loaded, a, t, i) == Roi(Label("Nucl_", c + 1), Restored(ops, dilate, loaded[i].geom))
            && Entry(ops, dilate, loaded, a, t, i + 1) == Roi(Label("Cell_", c + 1), loaded[i + 1].geom)
            && Entry(ops, dilate, loaded, a, t, n + 2 * c) == Roi(Label("Cyto_", c + 1), CytoGeom(ops, dilate, loaded[i].geom, loaded[i + 1].geom))
            && Entry(ops, dilate, loaded, a, t, n + 2 * c + 1) == ConstrainedSlot(ops, dilate, loaded[i].geom, loaded[i + 1].geom, c + 1)
    decreases t
  {
    if c < t - 1 {
      EntriesOfCell(ops, dilate, loaded, a, t - 1, c);
    }
  }

  /** `EntriesOfCell`, read off the whole layout. */
  lemma LayoutOfCell<G>(ops: GeomOps<G>, dilate: int, loaded: seq<Roi<G>>, a: nat, t: nat, c: nat)
    requires a + 2 * t <= |loaded| && c < t
    ensures var r := Layout(ops, dilate, loaded, a, t);
            var n := |loaded|;
            var i := a + 2 * c;
            && r[i] == Roi(Label("Nucl_", c + 1), Restored(ops, dilate, loaded[i].geom))
            && r[i + 1] == Roi(Label("Cell_", c + 1), loaded[i + 1].geom)
            && r[n + 2 * c] == Roi(Label("Cyto_", c + 1), CytoGeom(ops, dilate, loaded[i].geom, loaded[i + 1].geom))
            && r[n + 2 * c + 1] == ConstrainedSlot(ops, dilate, loaded[i].geom, loaded[i + 1].geom, c + 1)
  {
    var n := |loaded|;
    var i := a + 2 * c;
    EntriesOfCell(ops, dilate, loaded, a, t, c);
    LayoutAt(ops, dilate, loaded, a, t, i);
    LayoutAt(ops, dilate, loaded, a, t, i + 1);
    LayoutAt(ops, dilate, loaded, a, t, n + 2 * c);
    LayoutAt(ops, dilate, loaded, a, t, n + 2 * c + 1);
  }

  lemma LayoutOfNoCells<G>(ops: GeomOps<G>, dilate: int, loaded: seq<Roi<G>>, a: nat)
    ensures Layout(ops, dilate, loaded, a, 0) == loaded
  {
    forall j | 0 <= j < |loaded| ensures Layout(ops, dilate, loaded, a, 0)[j] == loaded[j] {
      LayoutAt(ops, dilate, loaded, a, 0, j);
    }
  }

  /** Entry `j` after one more loop pass is entry `j` of the layout after `t + 1` cells. */
  lemma StepEntry<G>(ops: GeomOps<G>, dilate: int, loaded: seq<Roi<G>>, a: nat, t: nat, i: int, j: nat)
    requires i == a + 2 * t && i + 2 <= |loaded|
    requires j < |loaded| + 2 * (t + 1)
    ensures CellStep(ops, dilate, Layout(ops, dilate, loaded, a, t), i, t + 1)[j]
         == Entry(ops, dilate, loaded, a, t + 1, j)
  {
    EntryUntouched(ops, dilate, loaded, a, t, i);
    EntryUntouched(ops, dilate, loaded, a, t, i + 1);
    LayoutAt(ops, dilate, loaded, a, t, i);
    LayoutAt(ops, dilate, loaded, a, t, i + 1);
    if j < |loaded| + 2 * t && j != i && j != i + 1 {
      LayoutAt(ops, dilate, loaded, a, t, j);
    }
  }

  /** One loop pass at the next nucleus turns the layout after `t` cells into the layout after `t + 1`. */
  lemma StepFollowsLayout<G>(ops: GeomOps<G>, dilate: int, loaded: seq<Roi<G>>, a: nat, t: nat, i: int)
    requires i == a + 2 * t && i + 2 <= |loaded|
    ensures CellStep(ops, dilate, Layout(ops, dilate, loaded, a, t), i, t + 1)
         == Layout(ops, dilate, loaded, a, t + 1)
  {
    var after := CellStep(ops, dilate, Layout(ops, dilate, loaded, a, t), i, t + 1);
    var want := Layout(ops, dilate, loaded, a, t + 1);
    forall j | 0 <= j < |want| ensures after[j] == want[j] {
      StepEntry(ops, dilate, loaded, a, t, i, j);
      LayoutAt(ops, dilate, loaded, a, t + 1, j);
    }
  }

  /** The loop over the remaining nuclei `a + 2t, a + 2(t + 1), ...` completes the
      layout after `total = t + |rest|` cells. */
  lemma {:induction false} LoopFollowsLayout<G>(ops: GeomOps<G>, dilate: int, loaded: seq<Roi<G>>, a: nat, t: nat,
                                                rest: seq<int>, total: nat)
    requires total == t + |rest|
    requires total == 0 || a + 2 * total <= |loaded|
    requires forall j :: 0 <= j < |rest| ==> rest[j] == a + 2 * (t + j)
    ensures CellLoop(ops, dilate, Layout(ops, dilate, loaded, a, t), rest, t + 1)
         == Layout(ops, dilate, loaded, a, total)
    decreases |rest|
  {
    if |rest| > 0 {
      StepFollowsLayout(ops, dilate, loaded, a, t, rest[0]);
      LoopFollowsLayout(ops, dilate, loaded, a, t + 1, rest[1..], total);
    }
  }

  /** The derivation of one accepted set, before saving: the cell loop from
      cell 1, then the "Background" rename when exactly one ROI is skipped. */
  function Derive<G>(ops: GeomOps<G>, skip: nat, dilate: int, loaded: seq<Roi<G>>): (r: seq<Roi<G>>)
    requires !Rejected(|loaded|, skip)
    ensures |r| == |loaded| + 2 * Cells(|loaded|, skip)
  {
    NucleusIndicesInBounds(|loaded|, skip);
    var derived := CellLoop(ops, dilate, loaded, NucleusIndices(|loaded|, skip), 1);
    if skip == 1 then Rename(derived, 0, "Background") else derived
  }

  /** `process`: `None` when the set is refused for an odd count (nothing derived,
      nothing saved), otherwise the derived list and the path it is saved to. */
  function Process<G>(ops: GeomOps<G>, srcDir: string, dstDir: string, currentDir: string, fileName: string,
                      keepDirectories: bool, skip: nat, dilate: int, loaded: seq<Roi<G>>): (r: Option<Saved<G>>)
    ensures r.None? <==> Rejected(|loaded|, skip)
    ensures r.Some? ==> r.value.path == Paths.SavePath(srcDir, dstDir, currentDir, fileName, keepDirectories)
    ensures r.Some? ==> |r.value.rois| == |loaded| + 2 * Cells(|loaded|, skip)
    ensures r.Some? ==> r.value.rois == Derive(ops, skip, dilate, loaded)
  {
    if Rejected(|loaded|, skip) then None
    else Some(Saved(Paths.SavePath(srcDir, dstDir, currentDir, fileName, keepDirectories),
                    Derive(ops, skip, dilate, loaded)))
  }

  /** The derived list is the reference layout for all cells, with index 0 renamed
      "Background" when one ROI is skipped. */
  lemma {:induction false} DeriveIsLayout<G>(ops: GeomOps<G>, skip: nat, dilate: int, loaded: seq<Roi<G>>)
    requires !Rejected(|loaded|, skip)
    ensures Cells(|loaded|, skip) == 0 || skip + 2 * Cells(|loaded|, skip) <= |loaded|
    ensures var layout := Layout(ops, dilate, loaded, skip, Cells(|loaded|, skip));
            Derive(ops, skip, dilate, loaded) == if skip == 1 then Rename(layout, 0, "Background") else layout
  {
    var idx := NucleusIndices(|loaded|, skip);
    PairsFitLoaded(|loaded|, skip);
    NucleusIndicesInBounds(|loaded|, skip);
    LayoutOfNoCells(ops, dilate, loaded, skip);
    LoopFollowsLayout(ops, dilate, loaded, skip, 0, idx, |idx|);
  }

  /** Cell `c + 1` (0 <= c < cells): its nucleus and cell keep their indices and get
      their names, the nucleus holds the enlarged-then-shrunk outline, and the two
      tail entries for the cell sit at `n + 2c` and `n + 2c + 1`. */
  lemma CellEntries<G>(ops: GeomOps<G>, skip: nat, dilate: int, loaded: seq<Roi<G>>, c: nat)
    requires !Rejected(|loaded|, skip)
    requires c < Cells(|loaded|, skip)
    ensures var r := Derive(ops, skip, dilate, loaded);
            var n := |loaded|;
            var i := skip + 2 * c;
            && i + 1 < n
            && r[i] == Roi(Label("Nucl_", c + 1), Restored(ops, dilate, loaded[i].geom))
            && r[i + 1] == Roi(Label("Cell_", c + 1), loaded[i + 1].geom)
            && r[n + 2 * c] == Roi(Label("Cyto_", c + 1), CytoGeom(ops, dilate, loaded[i].geom, loaded[i + 1].geom))
            && r[n + 2 * c + 1] == ConstrainedSlot(ops, dilate, loaded[i].geom, loaded[i + 1].geom, c + 1)
  {
    DeriveIsLayout(ops, skip, dilate, loaded);
    LayoutOfCell(ops, dilate, loaded, skip, Cells(|loaded|, skip), c);
  }

  /** The names the loop gives never clash: two different cells never share a
      `Nucl_`, `Cell_` or `Cyto_` name, and no nucleus, cell and cytoplasm names coincide. */
  lemma CellNamesDistinct<G>(ops: GeomOps<G>, skip: nat, dilate: int, loaded: seq<Roi<G>>, c1: nat, c2: nat)
    requires !Rejected(|loaded|, skip)
    requires c1 < Cells(|loaded|, skip) && c2 < Cells(|loaded|, skip)
    ensures var r := Derive(ops, skip, dilate, loaded);
            var n := |loaded|;
            var i1 := skip + 2 * c1;
            var i2 := skip + 2 * c2;
            && i1 + 1 < n && i2 + 1 < n && |r| > n + 2 * c1 && |r| > n + 2 * c2
            && (c1 != c2 ==> r[i1].name != r[i2].name && r[i1 + 1].name != r[i2 + 1].name
                             && r[n + 2 * c1].name != r[n + 2 * c2].name)
            && r[i1].name != r[i2 + 1].name && r[i1].name != r[n + 2 * c2].name
            && r[i1 + 1].name != r[n + 2 * c2].name
  {
    CellEntries(ops, skip, dilate, loaded, c1);
    CellEntries(ops, skip, dilate, loaded, c2);
    CellLabelsDistinct(c1 + 1, c2 + 1);
  }

  /** With no or one skipped ROI an accepted set grows by exactly two entries per
      cell, `(n - skip) / 2` cells, whatever the intersections turn out to be. */
  lemma DerivedCount<G>(ops: GeomOps<G>, skip: nat, dilate: int, loaded: seq<Roi<G>>)
    requires skip <= 1 && !Rejected(|loaded|, skip)
    ensures |Derive(ops, skip, dilate, loaded)| == |loaded| + 2 * ((|loaded| - skip) / 2)
  {
    CellCountSmallSkip(|loaded|, skip);
  }

  /** The second tail entry of a cell is named "CytoConstrained_k" exactly when the
      cytoplasm meets the disk; otherwise it is the disk itself. */
  lemma ConstrainedExactlyWhenIntersecting<G>(ops: GeomOps<G>, dilate: int, nucleus: G, cell: G, k: nat)
    ensures var e := ConstrainedSlot(ops, dilate, nucleus, cell, k);
            var meet := ops.intersect(CytoGeom(ops, dilate, nucleus, cell), ops.disk(nucleus));
            (meet.Some? ==> e == Roi(Label("CytoConstrained_", k), meet.value))
            && (meet.None? ==> e == Roi(ops.autoName(ops.disk(nucleus)), ops.disk(nucleus)))
  {
  }

  /** Entries below the loaded count never move: an entry outside the visited pairs
      is unchanged except for the "Background" rename of index 0. */
  lemma LoadedEntriesStay<G>(ops: GeomOps<G>, skip: nat, dilate: int, loaded: seq<Roi<G>>, j: nat)
    requires !Rejected(|loaded|, skip)
    requires j < |loaded|
    ensures var r := Derive(ops, skip, dilate, loaded);
            var t := Cells(|loaded|, skip);
            && (!(skip <= j < skip + 2 * t) && !(skip == 1 && j == 0) ==> r[j] == loaded[j])
            && (skip == 1 && j == 0 ==> r[j] == Roi("Background", loaded[0].geom))
  {
    DeriveIsLayout(ops, skip, dilate, loaded);
    LayoutAt(ops, dilate, loaded, skip, Cells(|loaded|, skip), j);
    if !(skip <= j < skip + 2 * Cells(|loaded|, skip)) {
      EntryUntouched(ops, dilate, loaded, skip, Cells(|loaded|, skip), j);
    }
  }

  /** Index 0 of a non-empty derived list is named "Background" exactly when
      one ROI is skipped (skip is 0 or 1 in this script). */
  lemma BackgroundExactlyWhenSkipped<G>(ops: GeomOps<G>, skip: nat, dilate: int, loaded: seq<Roi<G>>)
    requires skip <= 1 && !Rejected(|loaded|, skip)
    requires |loaded| > 0
    ensures Derive(ops, skip, dilate, loaded)[0].name == "Background" <==> skip == 1
  {
    if skip == 0 {
      CellCountSmallSkip(|loaded|, skip);
      CellEntries(ops, skip, dilate, loaded, 0);
      assert Label("Nucl_", 1)[0] == 'N';
    } else {
      LoadedEntriesStay(ops, skip, dilate, loaded, 0);
    }
  }
}

=== FILE: cyto_rois.dfy ===
/** Per-file derivation of Cytoplasm_ROI.py: for every (nucleus, cell) pair the
    nucleus is enlarged (and left enlarged), the pair is renamed, and one
    cytoplasm ROI is appended; afterwards every ROI of the list gets a row in
    the shared measurement table. */
module CytoRois {
  import opened Rois
  import opened Text
  import opened Pairing
  import Paths

  /** One row of the results table: the "Filename", "ROI name" and "ROI area" columns. */
  datatype Row = Row(fileName: string, roiName: string, area: real)

  /** One pass of the per-cell loop body, nucleus at `i`, cell number `k`, in the
      order the script issues RoiManager commands: enlarge and update the nucleus,
      rename the pair, XOR it, add the result and rename the new last entry. */
  function CytoCommands<G>(ops: GeomOps<G>, dilate: int, rois: seq<Roi<G>>, i: int, k: nat): (r: seq<Roi<G>>)
    requires 0 <= i && i + 1 < |rois|
    ensures |r| == |rois| + 1
    ensures forall j :: 0 <= j < |rois| && j != i && j != i + 1 ==> r[j] == rois[j]
    ensures r[i] == Roi(Label("Nucl_", k), ops.enlarge(rois[i].geom, dilate))
    ensures r[i + 1] == Roi(Label("Cell_", k), rois[i + 1].geom)
    ensures r[|rois|] == Roi(Label("Cyto_", k), CytoGeom(ops, dilate, rois[i].geom, rois[i + 1].geom))
  {
    var dilated := Update(rois, i, ops.enlarge(rois[i].geom, dilate));
    var named := Rename(Rename(dilated, i, Label("Nucl_", k)), i + 1, Label("Cell_", k));
    var withCyto := Add(ops, named, ops.xor(named[i].geom, named[i + 1].geom));
    var newTotal := |withCyto|;
    Rename(withCyto, newTotal - 1, Label("Cyto_", k))
  }

  /** The net effect of one pass: the pair renamed with the nucleus enlarged, one cytoplasm appended. */
  function CytoStep<G>(ops: GeomOps<G>, dilate: int, rois: seq<Roi<G>>, i: int, k: nat): (r: seq<Roi<G>>)
    requires 0 <= i && i + 1 < |rois|
    ensures |r| == |rois| + 1
  {
    var nucleus := rois[i].geom;
    var cell := rois[i + 1].geom;
    rois[i := Roi(Label("Nucl_", k), ops.enlarge(nucleus, dilate))][i + 1 := Roi(Label("Cell_", k), cell)]
      + [Roi(Label("Cyto_", k), CytoGeom(ops, dilate, nucleus, cell))]
  }

  /** The command sequence of a pass has exactly the net effect `CytoStep` describes. */
  lemma CommandsHaveNetEffect<G>(ops: GeomOps<G>, dilate: int, rois: seq<Roi<G>>, i: int, k: nat)
    requires 0 <= i && i + 1 < |rois|
    ensures CytoCommands(ops, dilate, rois, i, k) == CytoStep(ops, dilate, rois, i, k)
  {
  }

  /** The `for RoiIndex in range(...)` loop: one `CytoStep` per nucleus index,
      cell numbers counting up from `k`. */
  function CytoLoop<G>(ops: GeomOps<G>, dilate: int, rois: seq<Roi<G>>, indices: seq<int>, k: nat): (r: seq<Roi<G>>)
    requires forall j :: 0 <= j < |indices| ==> 0 <= indices[j] && indices[j] + 1 < |rois|
    ensures |r| == |rois| + |indices|
    decreases |indices|
  {
    if |indices| == 0 then rois
    else CytoLoop(ops, dilate, CytoStep(ops, dilate, rois, indices[0], k), indices[1..], k + 1)
  }

  /** Reference definition of entry `j` after the first `t` cells, nuclei loaded at
      `a`, `a + 2`, ...: cell `t` owns its renamed pair in place and the tail entry
      `n + t - 1`; every other entry is as it was after `t - 1` cells. */
  function Entry<G>(ops: GeomOps<G>, dilate: int, loaded: seq<Roi<G>>, a: nat, t: nat, j: int): Roi<G>
    requires t == 0 || a + 2 * t <= |loaded|
    requires 0 <= j < |loaded| + t
    decreases t
  {
    if t == 0 then loaded[j]
    else
      var i := a + 2 * (t - 1);
      if j == i then Roi(Label("Nucl_", t), ops.enlarge(loaded[i].geom, dilate))
      else if j == i + 1 then Roi(Label("Cell_", t), loaded[i + 1].geom)
      else if j == |loaded| + t - 1 then Roi(Label("Cyto_", t), CytoGeom(ops, dilate, loaded[i].geom, loaded[i + 1].geom))
      else Entry(ops, dilate, loaded, a, t - 1, j)
  }

  /** The whole list after the first `t` cells, entry by entry. */
  function Layout<G>(ops: GeomOps<G>, dilate: int, loaded: seq<Roi<G>>, a: nat, t: nat): (r: seq<Roi<G>>)
    requires t == 0 || a + 2 * t <= |loaded|
    ensures |r| == |loaded| + t
  {
    LayoutPrefix(ops, dilate, loaded, a, t, |loaded| + t)
  }

  /** The first `m` entries of `Layout`. */
  function LayoutPrefix<G>(ops: GeomOps<G>, dilate: int, loaded: seq<Roi<G>>, a: nat, t: nat, m: nat): (r: seq<Roi<G>>)
    requires t == 0 || a + 2 * t <= |loaded|
    requires m <= |loaded| + t
    ensures |r| == m
    decreases m
  {
    if m == 0 then [] else LayoutPrefix(ops, dilate, loaded, a, t, m - 1) + [Entry(ops, dilate, loaded, a, t, m - 1)]
  }

  lemma {:induction false} LayoutPrefixAt<G>(ops: GeomOps<G>, dilate: int, loaded: seq<Roi<G>>, a: nat, t: nat, m: nat, j: nat)
    requires t == 0 || a + 2 * t <= |loaded|
    requires j < m <= |loaded| + t
    ensures LayoutPrefix(ops, dilate, loaded, a, t, m)[j] == Entry(ops, dilate, loaded, a, t, j)
    decreases m
  {
    if j < m - 1 {
      LayoutPrefixAt(ops, dilate, loaded, a, t, m - 1, j);
    }
  }

  lemma LayoutAt<G>(ops: GeomOps<G>, dilate: int, loaded: seq<Roi<G>>, a: nat, t: nat, j: nat)
    requires t == 0 || a + 2 * t <= |loaded|
    requires j < |loaded| + t
    ensures Layout(ops, dilate, loaded, a, t)[j] == Entry(ops, dilate, loaded, a, t, j)
  {
    LayoutPrefixAt(ops, dilate, loaded, a, t, |loaded| + t, j);
  }

  /** After `t` cells, a loaded entry outside the visited pairs is untouched. */
  lemma {:induction false} EntryUntouched<G>(ops: GeomOps<G>, dilate: int, loaded: seq<Roi<G>>, a: nat, t: nat, j: int)
    requires t == 0 || a + 2 * t <= |loaded|
    requires 0 <= j < |loaded| && !(a <= j < a + 2 * t)
    ensures Entry(ops, dilate, loaded, a, t, j) == loaded[j]
    decreases t
  {
    if t > 0 {
      EntryUntouched(ops, dilate, loaded, a, t - 1, j);
    }
  }

  /** After `t` cells, cell `c + 1` (c < t) holds its renamed nucleus and cell at
      `a + 2c` and `a + 2c + 1` and its cytoplasm at `n + c`. */
  lemma {:induction false} EntriesOfCell<G>(ops: GeomOps<G>, dilate: int, loaded: seq<Roi<G>>, a: nat, t: nat, c: nat)
    requires a + 2 * t <= |loaded| && c < t
    ensures var i := a + 2 * c;
            && Entry(ops, dilate, loaded, a, t, i) == Roi(Label("Nucl_", c + 1), ops.enlarge(loaded[i].geom, dilate))
            && Entry(ops, dilate, loaded, a, t, i + 1) == Roi(Label("Cell_", c + 1), loaded[i + 1].geom)
            && Entry(ops, dilate, loaded, a, t, |loaded| + c) == Roi(Label("Cyto_", c + 1), CytoGeom(ops, dilate, loaded[i].geom, loaded[i + 1].geom))
    decreases t
  {
    if c < t - 1 {
      EntriesOfCell(ops, dilate, loaded, a, t - 1, c);
    }
  }

  /** `EntriesOfCell`, read off the whole layout. */
  lemma LayoutOfCell<G>(ops: GeomOps<G>, dilate: int, loaded: seq<Roi<G>>, a: nat, t: nat, c: nat)
    requires a + 2 * t <= |loaded| && c < t
    ensures var r := Layout(ops, dilate, loaded, a, t);
            var i := a + 2 * c;
            && r[i] == Roi(Label("Nucl_", c + 1), ops.enlarge(loaded[i].geom, dilate))
            && r[i + 1] == Roi(Label("Cell_", c + 1), loaded[i + 1].geom)
            && r[|loaded| + c] == Roi(Label("Cyto_", c + 1), CytoGeom(ops, dilate, loaded[i].geom, loaded[i + 1].geom))
  {
    var i := a + 2 * c;
    EntriesOfCell(ops, dilate, loaded, a, t, c);
    LayoutAt(ops, dilate, loaded, a, t, i);
    LayoutAt(ops, dilate, loaded, a, t, i + 1);
    LayoutAt(ops, dilate, loaded, a, t, |loaded| + c);
  }

  lemma LayoutOfNoCells<G>(ops: GeomOps<G>, dilate: int, loaded: seq<Roi<G>>, a: nat)
    ensures Layout(ops, dilate, loaded, a, 0) == loaded
  {
    forall j | 0 <= j < |loaded| ensures Layout(ops, dilate, loaded, a, 0)[j] == loaded[j] {
      LayoutAt(ops, dilate, loaded, a, 0, j);
    }
  }

  /** Entry `j` after one more loop pass is entry `j` of the layout after `t + 1` cells. */
  lemma StepEntry<G>(ops: GeomOps<G>, dilate: int, loaded: seq<Roi<G>>, a: nat, t: nat, i: int, j: nat)
    requires i == a + 2 * t && i + 2 <= |loaded|
    requires j < |loaded| + t + 1
    ensures CytoStep(ops, dilate, Layout(ops, dilate, loaded, a, t), i, t + 1)[j]
         == Entry(ops, dilate, loaded, a, t + 1, j)
  {
    EntryUntouched(ops, dilate, loaded, a, t, i);
    EntryUntouched(ops, dilate, loaded, a, t, i + 1);
    LayoutAt(ops, dilate, loaded, a, t, i);
    LayoutAt(ops, dilate, loaded, a, t, i + 1);
    if j < |loaded| + t && j != i && j != i + 1 {
      LayoutAt(ops, dilate, loaded, a, t, j);
    }
  }

  /** One loop pass at the next nucleus turns the layout after `t` cells into the layout after `t + 1`. */
  lemma StepFollowsLayout<G>(ops: GeomOps<G>, dilate: int, loaded: seq<Roi<G>>, a: nat, t: nat, i: int)
    requires i == a + 2 * t && i + 2 <= |loaded|
    ensures CytoStep(ops, dilate, Layout(ops, dilate, loaded, a, t), i, t + 1)
         == Layout(ops, dilate, loaded, a, t + 1)
  {
    var after := CytoStep(ops, dilate, Layout(ops, dilate, loaded, a, t), i, t + 1);
    var want := Layout(ops, dilate, loaded, a, t + 1);
    forall j | 0 <= j < |want| ensures after[j] == want[j] {
      StepEntry(ops, dilate, loaded, a, t, i, j);
      LayoutAt(ops, dilate, loaded, a, t + 1, j);
    }
  }

  /** The loop over the remaining nuclei `a + 2t, a + 2(t + 1), ...` completes the
      layout after `total = t + |rest|` cells. */
  lemma {:induction false} LoopFollowsLayout<G>(ops: GeomOps<G>, dilate: int, loaded: seq<Roi<G>>, a: nat, t: nat,
                                                rest: seq<int>, total: nat)
    requires total == t + |rest|
    requires total == 0 || a + 2 * total <= |loaded|
    requires forall j :: 0 <= j < |rest| ==> rest[j] == a + 2 * (t + j)
    ensures CytoLoop(ops, dilate, Layout(ops, dilate, loaded, a, t), rest, t + 1)
         == Layout(ops, dilate, loaded, a, total)
    decreases |rest|
  {
    if |rest| > 0 {
      StepFollowsLayout(ops, dilate, loaded, a, t, rest[0]);
      LoopFollowsLayout(ops, dilate, loaded, a, t + 1, rest[1..], total);
    }
  }

  /** The derivation of one accepted set, before measuring and saving: the cell
      loop from cell 1. There is no "Background" rename in this script. */
  function Derive<G>(ops: GeomOps<G>, skip: nat, dilate: int, loaded: seq<Roi<G>>): (r: seq<Roi<G>>)
    requires !Rejected(|loaded|, skip)
    ensures |r| == |loaded| + Cells(|loaded|, skip)
  {
    NucleusIndicesInBounds(|loaded|, skip);
    CytoLoop(ops, dilate, loaded, NucleusIndices(|loaded|, skip), 1)
  }

  /** The derived list is the reference layout for all visited cells. */
  lemma {:induction false} DeriveIsLayout<G>(ops: GeomOps<G>, skip: nat, dilate: int, loaded: seq<Roi<G>>)
    requires !Rejected(|loaded|, skip)
    ensures Cells(|loaded|, skip) == 0 || skip + 2 * Cells(|loaded|, skip) <= |loaded|
    ensures Derive(ops, skip, dilate, loaded) == Layout(ops, dilate, loaded, skip, Cells(|loaded|, skip))
  {
    var idx := NucleusIndices(|loaded|, skip);
    PairsFitLoaded(|loaded|, skip);
    NucleusIndicesInBounds(|loaded|, skip);
    LayoutOfNoCells(ops, dilate, loaded, skip);
    LoopFollowsLayout(ops, dilate, loaded, skip, 0, idx, |idx|);
  }

  /** Cell `c + 1` (0 <= c < cells): its nucleus and cell keep their indices and get
      their names, the nucleus stays enlarged, and its cytoplasm is entry `n + c`,
      so `Cyto_1, Cyto_2, ...` follow all loaded ROIs in cell order. */
  lemma CellEntries<G>(ops: GeomOps<G>, skip: nat, dilate: int, loaded: seq<Roi<G>>, c: nat)
    requires !Rejected(|loaded|, skip)
    requires c < Cells(|loaded|, skip)
    ensures var r := Derive(ops, skip, dilate, loaded);
            var i := skip + 2 * c;
            && i + 1 < |loaded|
            && r[i] == Roi(Label("Nucl_", c + 1), ops.enlarge(loaded[i].geom, dilate))
            && r[i + 1] == Roi(Label("Cell_", c + 1), loaded[i + 1].geom)
            && r[|loaded| + c] == Roi(Label("Cyto_", c + 1), CytoGeom(ops, dilate, loaded[i].geom, loaded[i + 1].geom))
  {
    DeriveIsLayout(ops, skip, dilate, loaded);
    LayoutOfCell(ops, dilate, loaded, skip, Cells(|loaded|, skip), c);
  }

  /** The names the loop gives never clash: two different cells never share a
      `Nucl_`, `Cell_` or `Cyto_` name, and no nucleus, cell and cytoplasm names coincide. */
  lemma CellNamesDistinct<G>(ops: GeomOps<G>, skip: nat, dilate: int, loaded: seq<Roi<G>>, c1: nat, c2: nat)
    requires !Rejected(|loaded|, skip)
    requires c1 < Cells(|loaded|, skip) && c2 < Cells(|loaded|, skip)
    ensures var r := Derive(ops, skip, dilate, loaded);
            var n := |loaded|;
            var i1 := skip + 2 * c1;
            var i2 := skip + 2 * c2;
            && i1 + 1 < n && i2 + 1 < n && |r| > n + c1 && |r| > n + c2
            && (c1 != c2 ==> r[i1].name != r[i2].name && r[i1 + 1].name != r[i2 + 1].name
                             && r[n + c1].name != r[n + c2].name)
            && r[i1].name != r[i2 + 1].name && r[i1].name != r[n + c2].name
            && r[i1 + 1].name != r[n + c2].name
  {
    CellEntries(ops, skip, dilate, loaded, c1);
    CellEntries(ops, skip, dilate, loaded, c2);
    CellLabelsDistinct(c1 + 1, c2 + 1);
  }

  /** Entries below the loaded count never move, and one outside the visited
      pairs is unchanged; in particular index 0 keeps its loaded name. */
  lemma LoadedEntriesStay<G>(ops: GeomOps<G>, skip: nat, dilate: int, loaded: seq<Roi<G>>, j: nat)
    requires !Rejected(|loaded|, skip)
    requires j < |loaded| && !(skip <= j < skip + 2 * Cells(|loaded|, skip))
    ensures Derive(ops, skip, dilate, loaded)[j] == loaded[j]
  {
    DeriveIsLayout(ops, skip, dilate, loaded);
    LayoutAt(ops, dilate, loaded, skip, Cells(|loaded|, skip), j);
    EntryUntouched(ops, dilate, loaded, skip, Cells(|loaded|, skip), j);
  }

  /** With no or one skipped ROI an accepted set grows by exactly `(n - skip) / 2` entries. */
  lemma DerivedCount<G>(ops: GeomOps<G>, skip: nat, dilate: int, loaded: seq<Roi<G>>)
    requires skip <= 1 && !Rejected(|loaded|, skip)
    ensures |Derive(ops, skip, dilate, loaded)| == |loaded| + (|loaded| - skip) / 2
  {
    CellCountSmallSkip(|loaded|, skip);
  }

  /** With two skipped ROIs a set of six is accepted but only its pair at index 2
      is processed: the result has seven entries, and entries 4 and 5 keep their
      loaded names. */
  lemma SixRoisSkipTwoDerivesOneCell<G>(ops: GeomOps<G>, dilate: int, loaded: seq<Roi<G>>)
    requires |loaded| == 6
    ensures !Rejected(|loaded|, 2)
    ensures var r := Derive(ops, 2, dilate, loaded);
            && |r| == 7
            && r[2].name == Label("Nucl_", 1) && r[3].name == Label("Cell_", 1)
            && r[6].name == Label("Cyto_", 1)
            && r[4] == loaded[4] && r[5] == loaded[5]
  {
    SixRoisSkipTwo();
    CellEntries(ops, 2, dilate, loaded, 0);
    LoadedEntriesStay(ops, 2, dilate, loaded, 4);
    LoadedEntriesStay(ops, 2, dilate, loaded, 5);
  }

  /** The measurement loop: one row per ROI, in list order, each with the file
      name, the ROI's current name and its area. */
  function Measure<G>(ops: GeomOps<G>, fileName: string, rois: seq<Roi<G>>): (rows: seq<Row>)
    ensures |rows| == |rois|
    ensures forall j :: 0 <= j < |rows| ==> rows[j] == Row(fileName, rois[j].name, ops.area(rois[j].geom))
    decreases |rois|
  {
    if |rois| == 0 then []
    else
      var last := rois[|rois| - 1];
      Measure(ops, fileName, rois[..|rois| - 1]) + [Row(fileName, last.name, ops.area(last.geom))]
  }

  /** What one call of `process` leaves behind: the archive it saves, if any, and the table. */
  datatype Outcome<G> = Outcome(saved: Option<Saved<G>>, table: seq<Row>)

  /** `process`: a refused set (odd count) saves nothing and adds no row; otherwise
      the derived list is measured into the shared table and saved. */
  function Process<G>(ops: GeomOps<G>, srcDir: string, dstDir: string, currentDir: string, fileName: string,
                      keepDirectories: bool, skip: nat, dilate: int, loaded: seq<Roi<G>>, table: seq<Row>): (r: Outcome<G>)
    ensures r.saved.None? <==> Rejected(|loaded|, skip)
    ensures r.saved.None? ==> r.table == table
    ensures r.saved.Some? ==> r.saved.value.path == Paths.SavePath(srcDir, dstDir, currentDir, fileName, keepDirectories)
    ensures r.saved.Some? ==> |r.saved.value.rois| == |loaded| + Cells(|loaded|, skip)
    ensures r.saved.Some? ==> r.saved.value.rois == Derive(ops, skip, dilate, loaded)
    ensures r.saved.Some? ==> r.table == table + Measure(ops, fileName, r.saved.value.rois)
  {
    if Rejected(|loaded|, skip) then Outcome(None, table)
    else
      var derived := Derive(ops, skip, dilate, loaded);
      Outcome(Some(Saved(Paths.SavePath(srcDir, dstDir, currentDir, fileName, keepDirectories), derived)),
              table + Measure(ops, fileName, derived))
  }

  /** `process` only appends to the table: the rows already there stay, and an
      accepted set adds one row per derived ROI, all carrying its file name. */
  lemma ProcessAppendsRows<G>(ops: GeomOps<G>, srcDir: string, dstDir: string, currentDir: string, fileName: string,
                              keepDirectories: bool, skip: nat, dilate: int, loaded: seq<Roi<G>>, table: seq<Row>)
    ensures var r := Process(ops, srcDir, dstDir, currentDir, fileName, keepDirectories, skip, dilate, loaded, table);
            && r.table[..|table|] == table
            && |r.table| == |table| + (if Rejected(|loaded|, skip) then 0 else |loaded| + Cells(|loaded|, skip))
            && forall j :: |table| <= j < |r.table| ==> r.table[j].fileName == fileName
  {
    var r := Process(ops, srcDir, dstDir, currentDir, fileName, keepDirectories, skip, dilate, loaded, table);
    assert r.table[..|table|] == table;
  }
}

=== FILE: pairing.dfy ===
/** The pairing arithmetic both scripts share: the odd-count rejection test
    and the nucleus indices the per-cell loop visits, `range(skip, n - skip, 2)`. */
module Pairing {

  /** Python's `range(start, stop, 2)`. */
  function Range2(start: int, stop: int): (r: seq<int>)
    ensures |r| == if start >= stop then 0 else (stop - start + 1) / 2
    ensures forall j :: 0 <= j < |r| ==> r[j] == start + 2 * j
    ensures forall j :: 0 <= j < |r| ==> r[j] < stop
    decreases stop - start
  {
    if start >= stop then [] else [start] + Range2(start + 2, stop)
  }

  /** The set is refused when `numRois - skip` is odd. The difference may be
      negative; Python's `%` by a positive divisor, like Dafny's, never is. */
  predicate Rejected(numRois: int, skip: int) {
    (numRois - skip) % 2 != 0
  }

  /** `skipRois` in the circle script: one leading background ROI or none. */
  function SkipFor(backgroundRoi: bool): (skip: nat)
    ensures skip <= 1
    ensures skip == 1 <==> backgroundRoi
  {
    if backgroundRoi then 1 else 0
  }

  /** The nucleus indices of the per-cell loop for a set of `numRois` ROIs: every
      `skip + 2j` below `numRois - skip`, and no further one. */
  function NucleusIndices(numRois: int, skip: int): (r: seq<int>)
    ensures forall j :: 0 <= j < |r| ==> r[j] == skip + 2 * j && r[j] < numRois - skip
    ensures skip + 2 * |r| >= numRois - skip
  {
    Range2(skip, numRois - skip)
  }

  /** Number of cells the loop visits for a loaded set: `ceil((numRois - 2 skip) / 2)`, or none. */
  function Cells(numRois: int, skip: int): (c: nat)
    ensures c == if numRois - skip <= skip then 0 else (numRois - 2 * skip + 1) / 2
  {
    |NucleusIndices(numRois, skip)|
  }

  /** In an accepted set every visited nucleus and the cell after it are
      inside the loaded list. */
  lemma NucleusIndicesInBounds(numRois: nat, skip: nat)
    requires !Rejected(numRois, skip)
    ensures forall j :: 0 <= j < |NucleusIndices(numRois, skip)| ==>
      0 <= NucleusIndices(numRois, skip)[j] && NucleusIndices(numRois, skip)[j] + 1 < numRois
  {
  }

  /** Every index the loop visits lies before the end of the loaded list, and
      the last pair ends no later than it: `skip + 2 * cells <= numRois`. */
  lemma PairsFitLoaded(numRois: nat, skip: nat)
    requires !Rejected(numRois, skip)
    ensures |NucleusIndices(numRois, skip)| > 0 ==> skip + 2 * |NucleusIndices(numRois, skip)| <= numRois
  {
    var idx := NucleusIndices(numRois, skip);
    if |idx| > 0 {
      assert idx[|idx| - 1] == skip + 2 * (|idx| - 1);
      NucleusIndicesInBounds(numRois, skip);
    }
  }

  /** With no or one leading ROI, an accepted set visits exactly `(numRois - skip) / 2` cells. */
  lemma CellCountSmallSkip(numRois: nat, skip: nat)
    requires skip <= 1 && !Rejected(numRois, skip)
    ensures |NucleusIndices(numRois, skip)| == (numRois - skip) / 2
  {
  }

  /** With two or more leading ROIs the loop bound `numRois - skip` also cuts
      `skip` pairs off the end: fewer than `(numRois - skip) / 2` cells are
      visited whenever there is at least one pair. */
  lemma CellCountLargeSkip(numRois: nat, skip: nat)
    requires skip >= 2 && numRois >= skip + 2 && !Rejected(numRois, skip)
    ensures |NucleusIndices(numRois, skip)| < (numRois - skip) / 2
  {
  }

  /** Six ROIs with two skipped: only the pair at index 2 is visited. */
  lemma SixRoisSkipTwo()
    ensures !Rejected(6, 2)
    ensures NucleusIndices(6, 2) == [2]
  {
  }

  /** A set shorter than `skip` is refused whenever the difference is odd. */
  lemma ShortOddSetRejected(numRois: nat, skip: nat)
    requires numRois < skip && (skip - numRois) % 2 == 1
    ensures Rejected(numRois, skip)
  {
  }
}

=== FILE: paths.dfy ===
/** The path and file-name computations both scripts share: the discovery
    filter, Python's `str.replace`, `os.path.splitext`, `os.path.join` (POSIX
    flavour) and the save path of a derived ROI set. */
module Paths {
  import opened Text

  /** A file is processed iff it is not a dotfile, ends with `ext` and contains
      `containString`; in terms of characters: no leading dot, the name ends with
      `ext`, and `containString` occurs somewhere in it. */
  predicate Accept(fileName: string, ext: string, containString: string)
    ensures Accept(fileName, ext, containString) <==>
      && (|fileName| == 0 || fileName[0] != '.')
      && |ext| <= |fileName| && fileName[|fileName| - |ext|..] == ext
      && exists i :: OccursAt(fileName, containString, i)
  {
    assert |fileName| > 0 ==> (StartsWith(fileName, ".") <==> fileName[..1] == [fileName[0]] == ".");
    !StartsWith(fileName, ".") && EndsWith(fileName, ext) && Contains(fileName, containString)
  }

  /** Python's `s.replace("", repl)`: `repl` before every character and at the end. */
  function InterleaveEmpty(s: string, repl: string): (r: string)
    ensures |r| == |s| + (|s| + 1) * |repl|
    decreases |s|
  {
    if |s| == 0 then repl else repl + [s[0]] + InterleaveEmpty(s[1..], repl)
  }

  /** Chunk `i` of `r`, chunks being `|repl| + 1` long, is `repl` followed by `c`. */
  predicate ChunkAt(r: string, repl: string, i: nat, c: char) {
    var k := |repl| + 1;
    0 <= i * k && i * k + k <= |r| && r[i * k .. i * k + |repl|] == repl && r[i * k + |repl|] == c
  }

  /** Chunk `i` of `s.replace("", repl)` is `repl`, then `s[i]`. */
  lemma {:induction false} InterleaveEmptyAt(s: string, repl: string, i: nat)
    requires i < |s|
    ensures ChunkAt(InterleaveEmpty(s, repl), repl, i, s[i])
    decreases i
  {
    var r := InterleaveEmpty(s, repl);
    var k := |repl| + 1;
    var rest := InterleaveEmpty(s[1..], repl);
    assert r == repl + [s[0]] + rest;
    if i > 0 {
      InterleaveEmptyAt(s[1..], repl, i - 1);
      assert i * k == (i - 1) * k + k;
      assert r[i * k .. i * k + |repl|] == rest[(i - 1) * k .. (i - 1) * k + |repl|];
      assert r[i * k + |repl|] == rest[(i - 1) * k + |repl|];
    }
  }

  /** The tail of `s.replace("", repl)` after the last character is `repl`. */
  lemma {:induction false} InterleaveEmptyEnd(s: string, repl: string)
    ensures var r := InterleaveEmpty(s, repl);
            0 <= |s| * (|repl| + 1) <= |r| && r[|s| * (|repl| + 1)..] == repl
    decreases |s|
  {
    if |s| > 0 {
      var k := |repl| + 1;
      InterleaveEmptyEnd(s[1..], repl);
      assert |s| * k == (|s| - 1) * k + k;
    }
  }

  /** `s.replace("", repl)` puts `repl` in each of the `|s| + 1` gaps of `s`:
      chunk `i` is `repl` followed by `s[i]`, and the string ends with `repl`. */
  lemma InterleaveEmptyContents(s: string, repl: string)
    ensures forall i :: 0 <= i < |s| ==> ChunkAt(InterleaveEmpty(s, repl), repl, i, s[i])
    ensures 0 <= |s| * (|repl| + 1) <= |InterleaveEmpty(s, repl)|
            && InterleaveEmpty(s, repl)[|s| * (|repl| + 1)..] == repl
  {
    forall i | 0 <= i < |s| ensures ChunkAt(InterleaveEmpty(s, repl), repl, i, s[i]) {
      InterleaveEmptyAt(s, repl, i);
    }
    InterleaveEmptyEnd(s, repl);
  }

  /** Python's `s.replace(target, repl)`: every non-overlapping occurrence of `target`,
      leftmost first, becomes `repl`. */
  function ReplaceAll(s: string, target: string, repl: string): (r: string)
    ensures |repl| == |target| ==> |r| == |s|
    ensures |target| > 0 && StartsWith(s, target) ==> StartsWith(r, repl)
    decreases |s|
  {
    if |target| == 0 then InterleaveEmpty(s, repl)
    else if |s| < |target| then s
    else if s[..|target|] == target then repl + ReplaceAll(s[|target|..], target, repl)
    else [s[0]] + ReplaceAll(s[1..], target, repl)
  }

  /** An occurrence at `k + 1` in `s` is an occurrence at `k` in `s[1..]`. */
  lemma ShiftOccurs(s: string, t: string, k: int)
    requires |s| > 0 && k >= 0
    ensures OccursAt(s[1..], t, k) <==> OccursAt(s, t, k + 1)
  {
    if k + 1 + |t| <= |s| {
      assert s[1..][k..k + |t|] == s[k + 1..k + 1 + |t|];
    }
  }

  /** Where a non-empty `target` does not occur at the front, `str.replace` keeps
      the first character and carries on after it. */
  lemma ReplaceAllMiss(s: string, target: string, repl: string)
    requires |target| > 0 && |s| > 0 && !OccursAt(s, target, 0)
    ensures ReplaceAll(s, target, repl) == [s[0]] + ReplaceAll(s[1..], target, repl)
  {
    if |s| >= |target| {
      assert s[..|target|] != target;
    }
  }

  /** Cutting `s` at `i` after dropping its first character. */
  lemma SplitAfterFirst(s: string, i: nat)
    requires 0 < i <= |s|
    ensures s[1..][i - 1..] == s[i..] && [s[0]] + s[1..][..i - 1] == s[..i]
  {
    assert [s[0]] + s[1..][..i - 1] == s[..i];
  }

  /** Proof helper with no counterpart in the scripts: re-brackets a concatenation
      for `ReplaceAllKeepsPrefix`, where one kept character in front of
      `prefix + rest` extends the prefix. */
  lemma Prepend(whole: string, c: char, tail: string, prefix: string, longer: string, rest: string)
    requires whole == [c] + tail && tail == prefix + rest && longer == [c] + prefix
    ensures whole == longer + rest
  {
  }

  /** Proof helper with no counterpart in the scripts: re-brackets a concatenation
      for `ReplaceAllLeftmost`, a kept prefix in front of a replaced occurrence. */
  lemma Splice(whole: string, prefix: string, from: string, repl: string, rest: string)
    requires whole == prefix + from && from == repl + rest
    ensures whole == prefix + repl + rest
  {
  }

  /** Where a non-empty `target` occurs at the front, `str.replace` puts `repl`
      in its place and carries on after it. */
  lemma ReplaceAllHit(s: string, target: string, repl: string)
    requires |target| > 0 && OccursAt(s, target, 0)
    ensures ReplaceAll(s, target, repl) == repl + ReplaceAll(s[|target|..], target, repl)
  {
    assert s[..|target|] == target;
  }

  /** Before the first occurrence of a non-empty `target`, `str.replace` keeps
      every character. */
  lemma {:induction false} ReplaceAllKeepsPrefix(s: string, target: string, repl: string, i: nat)
    requires |target| > 0 && i <= |s|
    requires forall j :: 0 <= j < i ==> !OccursAt(s, target, j)
    ensures ReplaceAll(s, target, repl) == s[..i] + ReplaceAll(s[i..], target, repl)
    decreases i
  {
    if i == 0 {
      assert s[..0] + ReplaceAll(s[0..], target, repl) == ReplaceAll(s, target, repl);
    } else {
      var tail := s[1..];
      assert !OccursAt(s, target, 0);
      ReplaceAllMiss(s, target, repl);
      forall j | 0 <= j < i - 1 ensures !OccursAt(tail, target, j) {
        ShiftOccurs(s, target, j);
      }
      ReplaceAllKeepsPrefix(tail, target, repl, i - 1);
      SplitAfterFirst(s, i);
      Prepend(ReplaceAll(s, target, repl), s[0], ReplaceAll(tail, target, repl), tail[..i - 1],
              s[..i], ReplaceAll(s[i..], target, repl));
    }
  }

  /** `str.replace` replaces the leftmost occurrence of a non-empty `target` and
      then carries on after it: everything before that occurrence is kept. */
  lemma ReplaceAllLeftmost(s: string, target: string, repl: string, i: nat)
    requires |target| > 0 && OccursAt(s, target, i)
    requires forall j :: 0 <= j < i ==> !OccursAt(s, target, j)
    ensures ReplaceAll(s, target, repl) == s[..i] + repl + ReplaceAll(s[i + |target|..], target, repl)
  {
    var from := s[i..];
    ReplaceAllKeepsPrefix(s, target, repl, i);
    assert from[..|target|] == s[i..i + |target|];
    ReplaceAllHit(from, target, repl);
    assert from[|target|..] == s[i + |target|..];
    Splice(ReplaceAll(s, target, repl), s[..i], ReplaceAll(from, target, repl), repl,
           ReplaceAll(s[i + |target|..], target, repl));
  }

  /** A string without any occurrence of `target` comes back unchanged. */
  lemma {:induction false} ReplaceAllAbsent(s: string, target: string, repl: string)
    requires |target| > 0 && !Contains(s, target)
    ensures ReplaceAll(s, target, repl) == s
    decreases |s|
  {
    if |s| >= |target| {
      assert !OccursAt(s, target, 0);
      assert s[..|target|] != target;
      ReplaceAllAbsent(s[1..], target, repl);
      assert s == [s[0]] + s[1..];
    }
  }

  /** Replacing a substring by itself changes nothing. */
  lemma {:induction false} ReplaceAllBySelf(s: string, target: string)
    ensures ReplaceAll(s, target, target) == s
    decreases |s|
  {
    if |target| == 0 {
      InterleaveEmptyOfEmpty(s);
    } else if |s| >= |target| {
      if s[..|target|] == target {
        ReplaceAllBySelf(s[|target|..], target);
        assert s == s[..|target|] + s[|target|..];
      } else {
        ReplaceAllBySelf(s[1..], target);
        assert s == [s[0]] + s[1..];
      }
    }
  }

  lemma {:induction false} InterleaveEmptyOfEmpty(s: string)
    ensures InterleaveEmpty(s, "") == s
    decreases |s|
  {
    if |s| > 0 {
      InterleaveEmptyOfEmpty(s[1..]);
      assert s == [s[0]] + s[1..];
    }
  }

  /** A directory below `srcDir` is mirrored below `dstDir`: the leading `srcDir`
      becomes `dstDir` and the relative part is kept when it does not itself
      contain `srcDir`. */
  lemma MirroredDirectory(srcDir: string, dstDir: string, rel: string)
    requires |srcDir| > 0 && !Contains(rel, srcDir)
    ensures ReplaceAll(srcDir + rel, srcDir, dstDir) == dstDir + rel
  {
    var s := srcDir + rel;
    assert s[..|srcDir|] == srcDir;
    assert s[|srcDir|..] == rel;
    ReplaceAllAbsent(rel, srcDir, dstDir);
  }

  /** Index of the last `c` in `s`, or -1 (Python's `s.rfind(c)`). */
  function RFind(s: string, c: char): (r: int)
    ensures -1 <= r < |s|
    ensures r >= 0 ==> s[r] == c
    ensures forall j :: r < j < |s| ==> s[j] != c
    decreases |s|
  {
    if |s| == 0 then -1
    else if s[|s| - 1] == c then |s| - 1
    else RFind(s[..|s| - 1], c)
  }

  /** The POSIX `os.path.splitext`: the extension runs from the last dot after
      the last separator, unless only dots precede that dot in the final
      component (".bashrc" has no extension). Result is (root, ext). */
  function SplitExt(p: string): (r: (string, string))
    ensures r.0 + r.1 == p
    ensures |r.1| == 0 || (r.1[0] == '.' && forall j :: 1 <= j < |r.1| ==> r.1[j] != '.' && r.1[j] != '/')
    ensures |r.1| > 0 ==> exists j :: RFind(p, '/') < j < |r.0| && r.0[j] != '.'
    ensures |r.1| == 0 ==> forall d :: RFind(p, '/') < d < |p| && p[d] == '.' ==>
                             forall j :: RFind(p, '/') < j < d ==> p[j] == '.'
  {
    var sepIndex := RFind(p, '/');
    var dotIndex := RFind(p, '.');
    if dotIndex > sepIndex && exists j :: sepIndex + 1 <= j < dotIndex && p[j] != '.' then
      assert forall j :: 1 <= j < |p[dotIndex..]| ==> p[dotIndex..][j] == p[dotIndex + j];
      (p[..dotIndex], p[dotIndex..])
    else
      assert forall d :: sepIndex < d < |p| && p[d] == '.' ==> d <= dotIndex;
      (p, "")
  }

  /** POSIX `os.path.join(a, b)`: an absolute `b` replaces `a`, otherwise one separator joins them. */
  function Join(a: string, b: string): (r: string)
    ensures StartsWith(b, "/") ==> r == b
    ensures !StartsWith(b, "/") ==> StartsWith(r, a) && EndsWith(r, b) && |a| <= |r| - |b| <= |a| + 1
    ensures !StartsWith(b, "/") ==> r[|a|..|r| - |b|] == (if |a| == 0 || EndsWith(a, "/") then "" else "/")
  {
    if StartsWith(b, "/") then b
    else if |a| == 0 || EndsWith(a, "/") then a + b
    else a + "/" + b
  }

  /** Directory the derived set is saved to: the walk directory with `srcDir`
      replaced by `dstDir` when directories are kept, otherwise `dstDir`. */
  function SaveDir(srcDir: string, dstDir: string, currentDir: string, keepDirectories: bool): (r: string)
    ensures !keepDirectories ==> r == dstDir
    ensures keepDirectories && |srcDir| > 0 && !Contains(currentDir, srcDir) ==> r == currentDir
    ensures keepDirectories && |srcDir| > 0 && StartsWith(currentDir, srcDir) && !Contains(currentDir[|srcDir|..], srcDir)
            ==> r == dstDir + currentDir[|srcDir|..]
    ensures keepDirectories && |srcDir| > 0 && StartsWith(currentDir, srcDir)
            ==> r == dstDir + ReplaceAll(currentDir[|srcDir|..], srcDir, dstDir)
  {
    ReplacedDirectory(srcDir, dstDir, currentDir);
    if keepDirectories then ReplaceAll(currentDir, srcDir, dstDir) else dstDir
  }

  /** `currentDir.replace(srcDir, dstDir)` for a non-empty `srcDir`: a directory
      without `srcDir` in it is kept, and a directory `srcDir + rel` whose `rel`
      holds no further `srcDir` becomes `dstDir + rel`. */
  lemma ReplacedDirectory(srcDir: string, dstDir: string, currentDir: string)
    ensures |srcDir| > 0 && !Contains(currentDir, srcDir) ==> ReplaceAll(currentDir, srcDir, dstDir) == currentDir
    ensures |srcDir| > 0 && StartsWith(currentDir, srcDir) && !Contains(currentDir[|srcDir|..], srcDir)
            ==> ReplaceAll(currentDir, srcDir, dstDir) == dstDir + currentDir[|srcDir|..]
    ensures |srcDir| > 0 && StartsWith(currentDir, srcDir)
            ==> ReplaceAll(currentDir, srcDir, dstDir) == dstDir + ReplaceAll(currentDir[|srcDir|..], srcDir, dstDir)
  {
    if |srcDir| > 0 {
      if StartsWith(currentDir, srcDir) {
        assert OccursAt(currentDir, srcDir, 0);
        ReplaceAllLeftmost(currentDir, srcDir, dstDir, 0);
      }
      if !Contains(currentDir, srcDir) {
        ReplaceAllAbsent(currentDir, srcDir, dstDir);
      }
      if StartsWith(currentDir, srcDir) && !Contains(currentDir[|srcDir|..], srcDir) {
        assert currentDir == srcDir + currentDir[|srcDir|..];
        MirroredDirectory(srcDir, dstDir, currentDir[|srcDir|..]);
      }
    }
  }

  /** The suffix the scripts give a saved ROI archive. */
  const ArchiveSuffix := "_Cyto_Rois.zip"

  /** The saved archive's name: the file name without its extension, then "_Cyto_Rois.zip". */
  function OutputName(fileName: string): (r: string)
    ensures EndsWith(r, ArchiveSuffix)
    ensures StartsWith(fileName, r[..|r| - |ArchiveSuffix|])
    ensures forall j :: |r| - |ArchiveSuffix| <= j < |fileName| ==> fileName[j] != '/'
  {
    SplitExt(fileName).0 + ArchiveSuffix
  }

  /** Where `rm.save` writes a derived set: the output name in the save directory. */
  function SavePath(srcDir: string, dstDir: string, currentDir: string, fileName: string, keepDirectories: bool): (r: string)
    ensures EndsWith(r, OutputName(fileName))
    ensures !StartsWith(fileName, "/") ==> StartsWith(r, SaveDir(srcDir, dstDir, currentDir, keepDirectories))
  {
    OutputNameRelative(fileName);
    Join(SaveDir(srcDir, dstDir, currentDir, keepDirectories), OutputName(fileName))
  }

  /** For a relative file name the save path is exactly `os.path.join(saveDir, name)`:
      the save directory, one '/' unless it is empty or already ends in '/', and
      the output name, with nothing in between. */
  lemma SavePathIsJoin(srcDir: string, dstDir: string, currentDir: string, fileName: string, keepDirectories: bool)
    ensures var dir := SaveDir(srcDir, dstDir, currentDir, keepDirectories);
            !StartsWith(fileName, "/")
            ==> SavePath(srcDir, dstDir, currentDir, fileName, keepDirectories)
                == if |dir| == 0 || EndsWith(dir, "/") then dir + OutputName(fileName) else dir + "/" + OutputName(fileName)
  {
    OutputNameRelative(fileName);
  }

  /** A relative file name gives a relative output name, so `os.path.join` keeps the save directory. */
  lemma OutputNameRelative(fileName: string)
    ensures !StartsWith(fileName, "/") ==> !StartsWith(OutputName(fileName), "/")
  {
    var name := OutputName(fileName);
    var root := name[..|name| - |ArchiveSuffix|];
    if |root| > 0 {
      assert name[0] == root[0] == fileName[0];
      assert StartsWith(fileName, "/") <==> fileName[..1] == [fileName[0]] == "/";
    } else {
      assert name[0] == '_';
    }
    assert StartsWith(name, "/") ==> name[..1] == [name[0]] == "/";
  }

  /** For a name `stem + ext` whose extension is a single dotted suffix and whose
      stem is not all dots, the output name is `stem + "_Cyto_Rois.zip"`. */
  lemma {:induction false} OutputNameOfStem(stem: string, ext: string)
    requires |ext| > 0 && ext[0] == '.'
    requires forall j :: 1 <= j < |ext| ==> ext[j] != '.' && ext[j] != '/'
    requires forall j :: 0 <= j < |stem| ==> stem[j] != '/'
    requires exists j :: 0 <= j < |stem| && stem[j] != '.'
    ensures OutputName(stem + ext) == stem + "_Cyto_Rois.zip"
  {
    var p := stem + ext;
    var dotIndex := RFind(p, '.');
    var sepIndex := RFind(p, '/');
    assert p[|stem|] == '.';
    assert forall k :: |stem| < k < |p| ==> p[k] != '.' by {
      forall k | |stem| < k < |p| ensures p[k] != '.' {
        assert p[k] == ext[k - |stem|];
      }
    }
    assert forall k :: 0 <= k < |p| ==> p[k] != '/' by {
      forall k | 0 <= k < |p| ensures p[k] != '/' {
        if k < |stem| {
          assert p[k] == stem[k];
        } else {
          assert p[k] == ext[k - |stem|];
        }
      }
    }
    var j :| 0 <= j < |stem| && stem[j] != '.';
    assert p[j] == stem[j];
    assert p[..dotIndex] == stem;
  }

  /** Without kept directories every set is saved straight under `dstDir`. */
  lemma FlatSavePath(srcDir: string, dstDir: string, currentDir: string, fileName: string)
    requires !StartsWith(OutputName(fileName), "/")
    ensures StartsWith(SavePath(srcDir, dstDir, currentDir, fileName, false), dstDir)
    ensures EndsWith(SavePath(srcDir, dstDir, currentDir, fileName, false), OutputName(fileName))
    ensures |dstDir| > 0 && !EndsWith(dstDir, "/")
            ==> SavePath(srcDir, dstDir, currentDir, fileName, false) == dstDir + "/" + OutputName(fileName)
    ensures |dstDir| == 0 || EndsWith(dstDir, "/")
            ==> SavePath(srcDir, dstDir, currentDir, fileName, false) == dstDir + OutputName(fileName)
  {
    SavePathIsJoin(srcDir, dstDir, currentDir, fileName, false);
  }

  /** With kept directories, a set found directly in `srcDir` is saved in `dstDir`. */
  lemma TopLevelSavePath(srcDir: string, dstDir: string, fileName: string)
    requires |srcDir| > 0
    ensures SaveDir(srcDir, dstDir, srcDir, true) == dstDir
  {
    assert srcDir == srcDir + "";
    MirroredDirectory(srcDir, dstDir, "");
  }
}

=== FILE: rois.dfy ===
/** The ROI list the scripts drive through ImageJ's RoiManager, as a value:
    an ordered sequence of (name, geometry) records. Geometry is a type
    parameter and every geometric operation ImageJ performs is a field of
    `GeomOps`, so nothing is assumed about shapes. */
module Rois {

  datatype Option<T> = None | Some(value: T)

  /** One entry of the RoiManager list. */
  datatype Roi<G> = Roi(name: string, geom: G)

  /** The ImageJ operations the scripts invoke, left uninterpreted.
      - `xor`: RoiManager "XOR" of the two selected ROIs (nucleus first, cell second);
      - `intersect`: RoiManager "AND"; `None` when the image is left with no selection;
      - `enlarge`: "Enlarge..." by a signed pixel margin;
      - `disk`: the OvalRoi of the configured radius around a nucleus's centroid;
      - `area`: the area ImageJ's statistics report for a ROI;
      - `autoName`: the label RoiManager "Add" gives a new ROI. */
  datatype GeomOps<!G> = GeomOps(
    xor: (G, G) -> G,
    intersect: (G, G) -> Option<G>,
    enlarge: (G, int) -> G,
    disk: G -> G,
    area: G -> real,
    autoName: G -> string)

  /** Cytoplasm of a pair, as both scripts form it: the nucleus enlarged by
      `dilate` pixels, XOR the cell. */
  function CytoGeom<G>(ops: GeomOps<G>, dilate: int, nucleus: G, cell: G): G {
    ops.xor(ops.enlarge(nucleus, dilate), cell)
  }

  /** One archive written by `rm.save`: where, and the list it holds. */
  datatype Saved<G> = Saved(path: string, rois: seq<Roi<G>>)

  /** `rm.rename(i, name)`: only the name at `i` changes. */
  function Rename<G>(rois: seq<Roi<G>>, i: int, name: string): (r: seq<Roi<G>>)
    requires 0 <= i < |rois|
    ensures |r| == |rois|
    ensures r[i].name == name && r[i].geom == rois[i].geom
    ensures forall j :: 0 <= j < |rois| && j != i ==> r[j] == rois[j]
  {
    rois[i := Roi(name, rois[i].geom)]
  }

  /** RoiManager "Update" after an enlarge of the ROI at `i`: the outline changes, the name stays. */
  function Update<G>(rois: seq<Roi<G>>, i: int, g: G): (r: seq<Roi<G>>)
    requires 0 <= i < |rois|
    ensures |r| == |rois|
    ensures r[i].name == rois[i].name && r[i].geom == g
    ensures forall j :: 0 <= j < |rois| && j != i ==> r[j] == rois[j]
  {
    rois[i := Roi(rois[i].name, g)]
  }

  /** RoiManager "Add": the image's current selection goes to the end of the list. */
  function Add<G>(ops: GeomOps<G>, rois: seq<Roi<G>>, g: G): (r: seq<Roi<G>>)
    ensures |r| == |rois| + 1
    ensures r[..|rois|] == rois
    ensures r[|rois|] == Roi(ops.autoName(g), g)
  {
    rois + [Roi(ops.autoName(g), g)]
  }

  /** RoiManager "Delete" of the single selected ROI: everything after it moves down one place. */
  function Delete<G>(rois: seq<Roi<G>>, i: int): (r: seq<Roi<G>>)
    requires 0 <= i < |rois|
    ensures |r| == |rois| - 1
    ensures forall j :: 0 <= j < i ==> r[j] == rois[j]
    ensures forall j :: i <= j < |r| ==> r[j] == rois[j + 1]
  {
    rois[..i] + rois[i + 1..]
  }
}

=== FILE: text.dfy ===
/** String helpers with the meaning the scripts' Python string operations have:
    `str()` of a cell number, the labels built from it, `startswith`,
    `endswith`, the `in` substring test and the default ordering `sort()` uses. */
module Text {

  /** The decimal digit character for `d`. */
  function DigitChar(d: nat): (c: char)
    requires d < 10
    ensures '0' <= c <= '9'
    ensures c as int - '0' as int == d
  {
    ('0' as int + d) as char
  }

  predicate IsDigits(s: string) {
    forall i :: 0 <= i < |s| ==> '0' <= s[i] <= '9'
  }

  /** Python's `str(n)` for a non-negative integer: decimal, no leading zero. */
  function NatToString(n: nat): (s: string)
    ensures |s| > 0 && IsDigits(s)
    ensures n > 0 ==> s[0] != '0'
    decreases n
  {
    if n < 10 then [DigitChar(n)] else NatToString(n / 10) + [DigitChar(n % 10)]
  }

  /** The number a string of decimal digits denotes (the reading direction of `NatToString`). */
  function DigitsValue(s: string): nat
    requires IsDigits(s)
    decreases |s|
  {
    if |s| == 0 then 0
    else DigitsValue(s[..|s| - 1]) * 10 + (s[|s| - 1] as int - '0' as int)
  }

  /** Reading back the decimal text of `n` gives `n`. */
  lemma {:induction false} DigitsValueOfNatToString(n: nat)
    ensures DigitsValue(NatToString(n)) == n
    decreases n
  {
    if n >= 10 {
      DigitsValueOfNatToString(n / 10);
      var s := NatToString(n);
      assert s[..|s| - 1] == NatToString(n / 10);
    }
  }

  lemma NatToStringInjective(a: nat, b: nat)
    ensures NatToString(a) == NatToString(b) <==> a == b
  {
    DigitsValueOfNatToString(a);
    DigitsValueOfNatToString(b);
  }

  /** `prefix + str(k)`, the way the scripts name derived ROIs ("Nucl_3", "Cyto_3", ...). */
  function Label(prefix: string, k: nat): (s: string)
    ensures |s| > |prefix|
    ensures s[..|prefix|] == prefix
    ensures IsDigits(s[|prefix|..])
  {
    prefix + NatToString(k)
  }

  /** Two labels with one prefix name the same cell exactly when the numbers agree. */
  lemma LabelInjective(prefix: string, a: nat, b: nat)
    ensures Label(prefix, a) == Label(prefix, b) <==> a == b
  {
    if Label(prefix, a) == Label(prefix, b) {
      assert Label(prefix, a)[|prefix|..] == NatToString(a);
      assert Label(prefix, b)[|prefix|..] == NatToString(b);
      NatToStringInjective(a, b);
    }
  }

  /** Labels whose prefixes differ at a position both prefixes have never coincide. */
  lemma LabelsWithDistinctPrefixes(p: string, q: string, a: nat, b: nat, i: nat)
    requires i < |p| && i < |q| && p[i] != q[i]
    ensures Label(p, a) != Label(q, b)
  {
    assert Label(p, a)[i] == p[i];
    assert Label(q, b)[i] == q[i];
  }

  /** The three labels the loops give never clash: a `Nucl_`, `Cell_` or `Cyto_`
      label of one cell number differs from every other such label. */
  lemma CellLabelsDistinct(a: nat, b: nat)
    ensures a != b ==> Label("Nucl_", a) != Label("Nucl_", b) && Label("Cell_", a) != Label("Cell_", b)
                       && Label("Cyto_", a) != Label("Cyto_", b)
    ensures Label("Nucl_", a) != Label("Cell_", b) && Label("Nucl_", a) != Label("Cyto_", b)
            && Label("Cell_", a) != Label("Cyto_", b)
  {
    LabelInjective("Nucl_", a, b);
    LabelInjective("Cell_", a, b);
    LabelInjective("Cyto_", a, b);
    LabelsWithDistinctPrefixes("Nucl_", "Cell_", a, b, 0);
    LabelsWithDistinctPrefixes("Nucl_", "Cyto_", a, b, 0);
    LabelsWithDistinctPrefixes("Cell_", "Cyto_", a, b, 1);
  }

  /** Python's `s.startswith(p)`. */
  predicate StartsWith(s: string, p: string) {
    |p| <= |s| && s[..|p|] == p
  }

  /** Python's `s.endswith(p)`. */
  predicate EndsWith(s: string, p: string) {
    |p| <= |s| && s[|s| - |p|..] == p
  }

  /** `p` occurs in `s` starting at index `i`. */
  predicate OccursAt(s: string, p: string, i: int) {
    0 <= i && i + |p| <= |s| && s[i..i + |p|] == p
  }

  /** Python's `p in s` for strings, as a left-to-right search. */
  function Contains(s: string, p: string): (b: bool)
    ensures b <==> exists i :: OccursAt(s, p, i)
    decreases |s|
  {
    if StartsWith(s, p) then
      assert OccursAt(s, p, 0);
      true
    else if |s| == 0 then
      false
    else
      var rest := Contains(s[1..], p);
      assert forall i :: OccursAt(s[1..], p, i) ==> OccursAt(s, p, i + 1) by {
        forall i | OccursAt(s[1..], p, i) ensures OccursAt(s, p, i + 1) {
          assert s[i + 1..i + 1 + |p|] == s[1..][i..i + |p|];
        }
      }
      assert forall i :: OccursAt(s, p, i) ==> i == 0 || OccursAt(s[1..], p, i - 1) by {
        forall i | OccursAt(s, p, i) && i != 0 ensures OccursAt(s[1..], p, i - 1) {
          assert s[1..][i - 1..i - 1 + |p|] == s[i..i + |p|];
        }
      }
      rest
  }

  /** The lexicographic order on strings by character code that Python's `sort()` uses. */
  predicate StrLe(a: string, b: string)
    decreases |a|
  {
    |a| == 0 || (|b| > 0 && (a[0] < b[0] || (a[0] == b[0] && StrLe(a[1..], b[1..]))))
  }

  lemma {:induction false} StrLeTotal(a: string, b: string)
    ensures StrLe(a, b) || StrLe(b, a)
    decreases |a|
  {
    if |a| > 0 && |b| > 0 && a[0] == b[0] {
      StrLeTotal(a[1..], b[1..]);
    }
  }

  lemma {:induction false} StrLeTransitive(a: string, b: string, c: string)
    requires StrLe(a, b) && StrLe(b, c)
    ensures StrLe(a, c)
    decreases |a|
  {
    if |a| > 0 && a[0] == b[0] && b[0] == c[0] {
      StrLeTransitive(a[1..], b[1..], c[1..]);
    }
  }

  predicate Sorted(s: seq<string>) {
    forall i, j :: 0 <= i < j < |s| ==> StrLe(s[i], s[j])
  }

  /** Inserts `x` into the sorted `s` before the first element it does not exceed. */
  function Insert(x: string, s: seq<string>): (r: seq<string>)
    ensures multiset(r) == multiset(s) + multiset{x}
    decreases |s|
  {
    if |s| == 0 then [x]
    else if StrLe(x, s[0]) then [x] + s
    else
      assert s == [s[0]] + s[1..];
      [s[0]] + Insert(x, s[1..])
  }

  lemma {:induction false} InsertSorted(x: string, s: seq<string>)
    requires Sorted(s)
    ensures Sorted(Insert(x, s))
    decreases |s|
  {
    if |s| == 0 {
    } else if StrLe(x, s[0]) {
      var r := Insert(x, s);
      forall i, j | 0 <= i < j < |r| ensures StrLe(r[i], r[j]) {
        if i == 0 && j > 1 {
          StrLeTransitive(x, s[0], s[j - 1]);
        }
      }
    } else {
      StrLeTotal(x, s[0]);
      InsertSorted(x, s[1..]);
      var tail := Insert(x, s[1..]);
      var r := [s[0]] + tail;
      assert r == Insert(x, s);
      forall j | 0 <= j < |tail| ensures StrLe(s[0], tail[j]) {
        assert tail[j] in multiset(tail);
        assert tail[j] == x || tail[j] in multiset(s[1..]);
        if tail[j] != x {
          var k :| 0 <= k < |s[1..]| && s[1..][k] == tail[j];
          assert s[k + 1] == tail[j];
        }
      }
    }
  }

  /** The sorted arrangement of `s`, as Python's `list.sort()` leaves it. */
  function Sort(s: seq<string>): (r: seq<string>)
    ensures multiset(r) == multiset(s)
    decreases |s|
  {
    if |s| == 0 then []
    else
      assert s == [s[0]] + s[1..];
      Insert(s[0], Sort(s[1..]))
  }

  lemma {:induction false} SortSorted(s: seq<string>)
    ensures Sorted(Sort(s))
    decreases |s|
  {
    if |s| > 0 {
      SortSorted(s[1..]);
      InsertSorted(s[0], Sort(s[1..]));
    }
  }
}
